=== FILE: README.md ===
# create_db in Dafny

A model of the schema-migration runner `nChain.CreateDB`, with proofs about it.

The runner is given a scripts root holding one sub-folder per database version (`01`, `02`, ...) and an optional bootstrap folder `00_CreateDB`. It works in three steps:

1. It classifies the sub-folders (`DBFolders`).
2. When a master connection string is configured, it processes the bootstrap folder. The bootstrap scripts run only if the database does not exist yet, and the step seeds the version table with version 0 when the table is empty.
3. It applies every version folder whose number is above the installed version. Each applied folder is wrapped in `StartUpdating(v)` and then either `FinishUpdating(v)` or, when a script fails, `RemoveVersion(v)`.

The run stops at the first failure. Inside a folder, the `.ddl`, `.sql` and `.txt` scripts run in `ScriptNameSorter` order: by the number before the first underscore, with a string comparison as the fallback. The connection a script runs on depends on a marker in its file name.

Modules:

- `Text`: the .NET primitives the code relies on, over `seq<char>`. These are `Path.GetFileName`, `IndexOf`, ASCII `ToLower`, `Int32.Parse`/`TryParse`, `Int32.CompareTo` and `String.CompareTo` (taken as ordinal).
- `ScriptPathTools`: the `SYS` marker classifier.
- `ScriptNameSorter`: the script comparer.
- `ListSort`: the `List.Sort` the runner applies, modelled as a stable insertion sort.
- `VersionFolderNameSorter`: the folder comparer.
- `DBFolders`:
  - The discovery pass, as a class whose method updates its fields.
  - The pure specification `Walk` and the lemmas about it.
- `VersionStore`: the database seen through `IDB`.
  - A class `Database` holding the version table (version -> updating flag) and a trace of every call made into it.
  - Existence probes and script outcomes are oracles fixed at construction.
- `CreateDB`: the engine.
  - A class whose methods mirror `CreateDB.cs` and are each proved equal to a function on the store (`CreateDatabaseEffect`, `ScriptFolderEffect`, ...).
  - The runner's properties are lemmas about those functions.

Connection strings are abstracted as tiers:

- `DDL`: the DDL user.
- `Master`: the superuser on the project database.
- `System`: the superuser on the default database.

Every probe and script call records its tier. Three behaviours of the code are easy to misread, and the model follows the code:

- **Folder order.** `DBFolders` does not reorder the version folders: it keeps them in the order `DirectoryHelper.GetDirectories` lists them (`DBFolders.cs:48`). No file in this model's sources calls `VersionFolderNameSorter`. `DirectoryHelper` is not part of this model and may order the listing, possibly with that sorter. The model takes the listing as an arbitrary sequence, so every lemma holds whatever order it yields. `DBFolders.EnumerationOrder` states that the listing's order is kept.
- **Signed folder names.** A folder is a version folder when `Int32.TryParse` accepts its name. That includes `-1` and `+7` (`Text.NegativeRoundTrip`, `Text.PositiveSignAccepted`).
- **The MASTER marker.** The comment at `Tools/ScriptPathTools.cs:47` names `0101_MASTER_ScriptName.sql`, but the classifier it heads looks for `SYS`. `CreateDB.cs:269` sends a version script for which `IsUsingMasterConnectionString` holds to `connectionStringSystem`, not to the master string. `CreateDB.ScriptTier` follows the code.

## Model

| member | source | states |
|---|---|---|
| Text.GetFileName | src/nChain.CreateDB/DBFolders.cs:82-85 | The result is the longest suffix of the path that contains no separator. The character before it, if any, is a separator. |
| Text.FileNameOfName | src/nChain.CreateDB/DBFolders.cs:84 | A name without separators is its own file name. |
| Text.FileNameOfJoin | src/nChain.CreateDB/Tools/ScriptNameSorter.cs:15-16 | Directory components never reach the file name: `GetFileName(dir + sep + name) == name`. |
| Text.FileNameIdempotent | src/nChain.CreateDB/DBFolders.cs:84 | Taking the file name twice is the same as taking it once. |
| Text.IndexOf | src/nChain.CreateDB/Tools/ScriptPathTools.cs:50 | Returns -1 exactly when the character is absent. Otherwise it returns an index holding the character with no earlier occurrence. |
| Text.IndexOfIs | src/nChain.CreateDB/Tools/ScriptPathTools.cs:50 | The first occurrence is the index the search reports. |
| Text.Lower | src/nChain.CreateDB/DBFolders.cs:51-52 | Same length. Each upper-case ASCII letter becomes its lower-case letter (code point plus 32), every other character is kept, and no upper-case letter is left. |
| Text.LowerIdempotent | src/nChain.CreateDB/DBFolders.cs:51-52 | Lower-casing twice is lower-casing once. |
| Text.LowerConcat | src/nChain.CreateDB/DBFolders.cs:51 | Lower-casing distributes over concatenation. |
| Text.ParseInt32 | src/nChain.CreateDB/DBFolders.cs:79 | An accepted string is non-empty and its value lies in the 32-bit range. |
| Text.ParseRejectsNoDigits | src/nChain.CreateDB/DBFolders.cs:77-80 | `TryParse` rejects the empty string and a lone sign. |
| Text.ParseRejectsNonDigit | src/nChain.CreateDB/DBFolders.cs:77-80 | `TryParse` rejects any text holding a character that is neither a digit nor a leading sign. |
| Text.ParseRejectsOutOfRange | src/nChain.CreateDB/DBFolders.cs:77-80 | `TryParse` rejects the decimal rendering of a number above 2147483647, and a minus sign followed by the rendering of a number above 2147483648. |
| Text.ParseRejectsOutOfRangeDigits | src/nChain.CreateDB/DBFolders.cs:77-80 | `TryParse` rejects any digit string, leading zeros included, whose value exceeds 2147483647, bare or after `+`, and whose value exceeds 2147483648 after `-`. |
| Text.ParsedIsLowerCase | src/nChain.CreateDB/DBFolders.cs:52-60 | Text that `TryParse` accepts is unchanged by `ToLower`. |
| Text.DecimalRoundTrip | src/nChain.CreateDB/DBFolders.cs:79 | Parsing the decimal rendering of any n in 0..Int32.MaxValue gives n back. |
| Text.LeadingZeroDigits | src/nChain.CreateDB/DBFolders.cs:79 | A leading zero changes neither the digits' value nor the parse. |
| Text.NegativeRoundTrip | src/nChain.CreateDB/DBFolders.cs:79 | `-<digits>` parses to the negative value down to Int32.MinValue, so signed folder names are accepted. |
| Text.PositiveSignAccepted | src/nChain.CreateDB/DBFolders.cs:79 | `+<digits>` parses to the same value as the digits alone, over 0..Int32.MaxValue, so a folder named `+7` is a version folder. |
| Text.IntCompare | src/nChain.CreateDB/Tools/ScriptNameSorter.cs:24 | The result is 0 exactly for equal numbers and negative exactly when the first is smaller. |
| Text.OrdinalCompare | src/nChain.CreateDB/Tools/ScriptNameSorter.cs:28 | The result is -1, 0 or 1; equal strings compare 0; the empty string comes before any other. |
| Text.OrdinalCompareZero | src/nChain.CreateDB/Tools/ScriptNameSorter.cs:28 | String comparison is 0 exactly for equal strings. |
| Text.OrdinalCompareAntisymmetric | src/nChain.CreateDB/Tools/ScriptNameSorter.cs:28 | Swapping the arguments of the string comparison negates the result. |
| ScriptPathTools.IsUsingSystemConnectionString | src/nChain.CreateDB/Tools/ScriptPathTools.cs:45-62 | A file name starting with `_` never selects the system connection. |
| ScriptPathTools.NameHasSystemMarker | src/nChain.CreateDB/Tools/ScriptPathTools.cs:50-61 | The same guard, applied to the bare file name. |
| ScriptPathTools.SystemMarkerExactly | src/nChain.CreateDB/Tools/ScriptPathTools.cs:45-62 | The classifier answers true if and only if the file name is `<non-empty prefix without _>_SYS_<rest>` (reference predicate `HasSystemMarker`). |
| ScriptPathTools.MarkerFound | src/nChain.CreateDB/Tools/ScriptPathTools.cs:50-61 | Forward direction: a true answer means the name carries the marker. |
| ScriptPathTools.MarkerRecognised | src/nChain.CreateDB/Tools/ScriptPathTools.cs:50-61 | Backward direction: a marked name gets a true answer. |
| ScriptPathTools.NameStartNeverNegative | src/nChain.CreateDB/Tools/ScriptPathTools.cs:50-51 | `nameStart` is `IndexOf + 1 >= 0`, so the `nameStart < 0` test never fires. |
| ScriptPathTools.DirectoriesIgnored | src/nChain.CreateDB/Tools/ScriptPathTools.cs:49 | Only the last path component is classified. |
| ScriptPathTools.LeadingUnderscoreIgnored | src/nChain.CreateDB/Tools/ScriptPathTools.cs:51-54 | A name starting with `_` gives false. |
| ScriptPathTools.NeedsTwoUnderscores | src/nChain.CreateDB/Tools/ScriptPathTools.cs:55-60 | A name with fewer than two underscores gives false. |
| ScriptPathTools.Classified | src/nChain.CreateDB/Tools/ScriptPathTools.cs:50-61 | Given the first two underscores at k and k+1+len, the answer is `k > 0 && the text between them == "SYS"`. |
| ScriptPathTools.MarkerBetweenUnderscores | src/nChain.CreateDB/Tools/ScriptPathTools.cs:47-61 | `<prefix>_<marker>_<rest>` gives exactly `prefix != "" && marker == "SYS"`. The check is case-sensitive. |
| ScriptPathTools.SingleUnderscore | src/nChain.CreateDB/Tools/ScriptPathTools.cs:55-59 | `0101_init.sql`-shaped names carry no marker. |
| ScriptPathTools.MarkerExamples | src/nChain.CreateDB/Tools/ScriptPathTools.cs:47 | `0101_SYS_init.sql` gives true. `0101_sys_x.sql`, `0101_MASTER_x.sql`, `0101_SYSX_x.sql` and `1__x.sql` give false. |
| ScriptNameSorter.NumericPrefix | src/nChain.CreateDB/Tools/ScriptNameSorter.cs:18-22 | A prefix exists only when the name has an underscore. |
| ScriptNameSorter.Compare | src/nChain.CreateDB/Tools/ScriptNameSorter.cs:9-30 | The result is -1, 0 or 1. |
| ScriptNameSorter.PrefixOf | src/nChain.CreateDB/Tools/ScriptNameSorter.cs:18-19 | The prefix of `<digits>_<rest>` is the value of the digits. |
| ScriptNameSorter.NumberedName | src/nChain.CreateDB/Tools/ScriptNameSorter.cs:15-22 | A bare `<number>_<rest>` name is its own file name, and its numeric prefix is the number. |
| ScriptNameSorter.NumberedOrder | src/nChain.CreateDB/Tools/ScriptNameSorter.cs:18-24 | `<x>_a` and `<y>_b` compare as the numbers x and y, so `1_x`, `2_x`, `10_x` order numerically. |
| ScriptNameSorter.LeadingZeroTie | src/nChain.CreateDB/Tools/ScriptNameSorter.cs:18-24 | `0<x>_a` and `<x>_b` compare as 0, whatever follows the underscore. |
| ScriptNameSorter.NoUnderscoreFallsBack | src/nChain.CreateDB/Tools/ScriptNameSorter.cs:18-29 | When either name has no numeric prefix (no underscore, or text before it that does not parse), the comparer falls back to comparing the file names as strings. |
| ScriptNameSorter.DirectoriesStripped | src/nChain.CreateDB/Tools/ScriptNameSorter.cs:15-16 | Directory components do not affect the comparison. |
| ScriptNameSorter.Reflexive | src/nChain.CreateDB/Tools/ScriptNameSorter.cs:9-30 | Every name compares 0 to itself. |
| ScriptNameSorter.Antisymmetric | src/nChain.CreateDB/Tools/ScriptNameSorter.cs:9-30 | `Compare(a, b) == -Compare(b, a)`. |
| ScriptNameSorter.CompareIsAntisymmetric | src/nChain.CreateDB/Tools/ScriptNameSorter.cs:9-30 | Antisymmetry for all pairs, the precondition of the sort lemma. |
| ScriptNameSorter.TransitiveAmongNumbered | src/nChain.CreateDB/Tools/ScriptNameSorter.cs:18-24 | Among names with numeric prefixes the comparer is transitive. |
| ScriptNameSorter.MixedNamesCycle | src/nChain.CreateDB/Tools/ScriptNameSorter.cs:9-30 | Mixing numbered and unnumbered names breaks transitivity: `2_b < 10_a < 1a < 2_b`. |
| ScriptNameSorter.BareNamesFallBack | src/nChain.CreateDB/Tools/ScriptNameSorter.cs:26-29 | For names without directories where one lacks an underscore, the comparer is the string comparison. |
| ListSort.Insert | src/nChain.CreateDB/CreateDB.cs:289 | Insertion adds exactly one element (multiset and length). |
| ListSort.Sort | src/nChain.CreateDB/CreateDB.cs:289 | The result is a permutation of the input (multiset and length). |
| ListSort.SortOrdersNeighbours | src/nChain.CreateDB/CreateDB.cs:289 | With an antisymmetric comparer, every pair of neighbours in the result is in comparer order. |
| ListSort.InsertKeepsNeighboursOrdered | src/nChain.CreateDB/CreateDB.cs:289 | Insertion keeps neighbours ordered. |
| ListSort.NeighboursOrderedIsOrdered | src/nChain.CreateDB/CreateDB.cs:289 | Where the comparer is transitive on the elements, neighbour order is full order. |
| VersionFolderNameSorter.Compare | src/nChain.CreateDB/Tools/VersionFolderNameSorter.cs:9-25 | The result is -1, 0 or 1. |
| VersionFolderNameSorter.NumericOrder | src/nChain.CreateDB/Tools/VersionFolderNameSorter.cs:16-19 | Numeric names compare as numbers: `2` before `10`. |
| VersionFolderNameSorter.LeadingZeroTie | src/nChain.CreateDB/Tools/VersionFolderNameSorter.cs:16-19 | `01` and `1` compare as 0. |
| VersionFolderNameSorter.NonNumericFallsBack | src/nChain.CreateDB/Tools/VersionFolderNameSorter.cs:21-24 | A non-numeric name makes the comparer fall back to comparing the last components as strings. |
| VersionFolderNameSorter.DirectoriesStripped | src/nChain.CreateDB/Tools/VersionFolderNameSorter.cs:13-14 | Only the last path component is compared. |
| VersionFolderNameSorter.Reflexive | src/nChain.CreateDB/Tools/VersionFolderNameSorter.cs:9-25 | Every name compares 0 to itself. |
| VersionFolderNameSorter.Antisymmetric | src/nChain.CreateDB/Tools/VersionFolderNameSorter.cs:9-25 | `Compare(a, b) == -Compare(b, a)`. |
| VersionFolderNameSorter.TransitiveAmongNumeric | src/nChain.CreateDB/Tools/VersionFolderNameSorter.cs:16-19 | Among numeric names the comparer is transitive. |
| DBFolders.IsVersionFolder | src/nChain.CreateDB/DBFolders.cs:77-80 | A version name is non-empty, has no upper-case letter, and never equals the bootstrap folder name in any case. |
| DBFolders.GetLastDirectoryName | src/nChain.CreateDB/DBFolders.cs:82-85 | The result is a separator-free suffix of the path, and the longest one: the character before it, if any, is a separator. |
| DBFolders.DBFolders.constructor | src/nChain.CreateDB/DBFolders.cs:22-30 | The new object's state is `Walk` of the directory enumeration. |
| DBFolders.DBFolders.ProcessProjectDirectory | src/nChain.CreateDB/DBFolders.cs:46-75 | The loop's new state is `Run` from the old state over the directories, one `Step` per directory. |
| DBFolders.Open | src/nChain.CreateDB/DBFolders.cs:22-30 | A missing root yields no object; otherwise a fresh object in state `Walk`. |
| DBFolders.KeyOfCreateDB | src/nChain.CreateDB/DBFolders.cs:51-52 | Every bootstrap-named folder has the key `lower(project) + "#00_createdb"`. |
| DBFolders.KeyOfVersion | src/nChain.CreateDB/DBFolders.cs:51-60 | A version folder is never bootstrap-named and never has the bootstrap key. |
| DBFolders.NumberIsNotCreateDB | src/nChain.CreateDB/DBFolders.cs:52-60 | A `TryParse`-accepted name never lower-cases to `00_createdb`. |
| DBFolders.KeyDeterminedByName | src/nChain.CreateDB/DBFolders.cs:51 | Folders whose last names agree up to case share a key. |
| DBFolders.ConsistentStep | src/nChain.CreateDB/DBFolders.cs:49-66 | One loop iteration preserves the discovery invariant `Consistent`: classification, distinct keys, and `seen` equal to the keys taken. |
| DBFolders.RunConsistent | src/nChain.CreateDB/DBFolders.cs:46-75 | The whole pass preserves `Consistent`. |
| DBFolders.Partition | src/nChain.CreateDB/DBFolders.cs:48-74 | The bootstrap folder, when set, is bootstrap-named and not a script folder. Every script folder has a `TryParse`-accepted name. |
| DBFolders.WalkShape | src/nChain.CreateDB/DBFolders.cs:52-66 | The outputs carry the names that admitted them. |
| DBFolders.DistinctNames | src/nChain.CreateDB/DBFolders.cs:51-66 | No two script folders share a last name up to case, so a second `1` is dropped. |
| DBFolders.WalkOfTwo | src/nChain.CreateDB/DBFolders.cs:48-65 | Visiting two directories applies the loop body twice, starting from the empty state. |
| DBFolders.TwoVersionFoldersKept | src/nChain.CreateDB/DBFolders.cs:51-66 | Two numeric folders whose keys differ are both kept, in the order they were visited. |
| DBFolders.PlainVersionNamesKept | src/nChain.CreateDB/DBFolders.cs:51-66 | Two version names without separators and of different lengths get different keys, so both are kept in the order visited. |
| DBFolders.OneAndZeroOneAreVersions | src/nChain.CreateDB/DBFolders.cs:77-80 | `Int32.TryParse` accepts both `1` and `01`. |
| DBFolders.OneAndZeroOneKept | src/nChain.CreateDB/DBFolders.cs:51-66 | `1` and `01` denote the same number but have different keys, so both become script folders, in that order. |
| DBFolders.StepSeen | src/nChain.CreateDB/DBFolders.cs:51-66 | One iteration never forgets a key and records the key of a bootstrap or version folder it visits. |
| DBFolders.VisitedKeysSeen | src/nChain.CreateDB/DBFolders.cs:48-66 | Every bootstrap-named or version folder visited leaves its key in the seen set. |
| DBFolders.Complete | src/nChain.CreateDB/DBFolders.cs:60-66 | Every version-named directory is represented by a script folder with its key. |
| DBFolders.RejectedIsNoVersion | src/nChain.CreateDB/DBFolders.cs:77-80 | A name that `TryParse` rejects is not a version folder name. |
| DBFolders.DocsIgnored | src/nChain.CreateDB/DBFolders.cs:46-75 | `docs` and `1a` are not version names, and a folder named `docs` becomes neither the bootstrap folder nor a script folder. |
| DBFolders.IgnoredFolders | src/nChain.CreateDB/DBFolders.cs:68-73 | A folder that is neither bootstrap-named nor numeric reaches neither output. |
| DBFolders.EnumerationOrder | src/nChain.CreateDB/DBFolders.cs:48-65 | Script folders are a subsequence of the directory listing, in the listing's order, whatever that order is. |
| DBFolders.FolderCount | src/nChain.CreateDB/DBFolders.cs:48-65 | There are no more script folders than directories. |
| DBFolders.NoBootstrap | src/nChain.CreateDB/DBFolders.cs:52-58 | With no bootstrap-named directory the bootstrap folder stays empty. |
| DBFolders.BootstrapKept | src/nChain.CreateDB/DBFolders.cs:52-58 | Once chosen, the bootstrap folder is never replaced. |
| DBFolders.BootstrapChosen | src/nChain.CreateDB/DBFolders.cs:52-58 | The first bootstrap-named directory is taken. |
| DBFolders.FirstBootstrapWins | src/nChain.CreateDB/DBFolders.cs:52-58 | The bootstrap folder is exactly the first directory whose last name lower-cases to `00_createdb`. |
| DBFolders.RunAppend | src/nChain.CreateDB/DBFolders.cs:48 | The pass over `xs + ys` is the pass over `ys` started where the pass over `xs` ended. |
| VersionStore.Current | src/nChain.CreateDB/DB/Postgres/DBPostgres.cs:78-86 | The current row is the highest installed version with its flag, or `(-1, false)` for an empty table. |
| VersionStore.MaxExists | src/nChain.CreateDB/DB/Postgres/DBPostgres.cs:85 | A non-empty set of versions has a highest element. |
| VersionStore.StartThenFinish | src/nChain.CreateDB/CreateDB.cs:188-194 | Starting then finishing a version above all installed ones makes it current and idle, and changes only that row. |
| VersionStore.RemoveUndoesStart | src/nChain.CreateDB/CreateDB.cs:188-192 | Removing a freshly started version restores the table exactly. |
| VersionStore.Database.DatabaseExists | src/nChain.CreateDB/DB/Postgres/DBPostgres.cs:53-58 | Returns the oracle's answer for the tier and records the probe. |
| VersionStore.Database.GetCurrentVersion | src/nChain.CreateDB/DB/Postgres/DBPostgres.cs:78-86 | Reports `Current` of the rows, creates the table when missing, and records the read. |
| VersionStore.Database.CreateVersionTable | src/nChain.CreateDB/DB/Postgres/DBPostgres.cs:36-44 | Creates the table unless it exists. Rows are unchanged. |
| VersionStore.Database.StartUpdating | src/nChain.CreateDB/DB/Postgres/DBPostgres.cs:60-64 | Row v becomes `updating`; nothing else changes. |
| VersionStore.Database.FinishUpdating | src/nChain.CreateDB/DB/Postgres/DBPostgres.cs:66-70 | Row v, if present, becomes idle; nothing else changes. |
| VersionStore.Database.RemoveVersion | src/nChain.CreateDB/DB/Postgres/DBPostgres.cs:72-76 | Row v is deleted; nothing else changes. |
| VersionStore.Database.ExecuteFileScript | src/nChain.CreateDB/DB/Postgres/DBPostgres.cs:46-50 | Returns the oracle's verdict for the script on that tier and records the call with its transaction flag. |
| CreateDB.WithExtension | src/nChain.CreateDB/CreateDB.cs:299-301 | Exactly the listed files ending in the extension, each as often as listed. |
| CreateDB.OneExtension | src/nChain.CreateDB/CreateDB.cs:299-305 | No file ends in two of `.ddl`, `.sql` and `.txt`, so no script is listed twice. |
| CreateDB.GetSqlAndTxtScripts | src/nChain.CreateDB/CreateDB.cs:295-310 | Each `.ddl`, `.sql` or `.txt` file of the listing occurs in the result as often as in the listing, and no other file occurs. |
| CreateDB.ScriptFilesOfListing | src/nChain.CreateDB/CreateDB.cs:299-305 | The three per-extension listings together hold exactly the script files of the folder. |
| CreateDB.GetScripts | src/nChain.CreateDB/CreateDB.cs:281-293 | A missing folder yields no scripts. An existing folder yields a permutation of `GetSqlAndTxtScripts`. |
| CreateDB.FolderVersion | src/nChain.CreateDB/CreateDB.cs:185 | A folder has a version exactly when its last name is a version name; the version lies in the 32-bit range. |
| CreateDB.FolderVersionOfDecimal | src/nChain.CreateDB/CreateDB.cs:185 | A folder named by the decimal digits of `n` has version `n`, whatever its parent path. |
| CreateDB.ScriptsOfFolder | src/nChain.CreateDB/CreateDB.cs:281-310 | `GetScripts` returns every `.ddl`/`.sql`/`.txt` file of an existing folder (as a multiset), and nothing for a missing folder. |
| CreateDB.ScriptsSorted | src/nChain.CreateDB/CreateDB.cs:307 | Neighbouring scripts are in `ScriptNameSorter` order. |
| CreateDB.ScriptTier | src/nChain.CreateDB/CreateDB.cs:263-270 | Bootstrap scripts never use the DDL connection. Version scripts never use the master connection. |
| CreateDB.BootstrapTier | src/nChain.CreateDB/CreateDB.cs:263-270 | With the `ScriptPathTools` classifier, a bootstrap script runs on the system connection exactly when its file name has the `_SYS_` marker, and on master otherwise. |
| CreateDB.VersionTier | src/nChain.CreateDB/CreateDB.cs:263-270 | A version script runs on the system connection exactly when the master classifier accepts it, and on DDL exactly when it does not. |
| CreateDB.ScriptEvent | src/nChain.CreateDB/CreateDB.cs:312-321 | The call executes that very script. It runs in a transaction exactly when it is not a bootstrap script. Bootstrap scripts never use DDL, version scripts never use master. |
| CreateDB.ScriptEventsAt | src/nChain.CreateDB/CreateDB.cs:229-231 | One script call per file, in order. |
| CreateDB.ScriptEventsAreScripts | src/nChain.CreateDB/CreateDB.cs:263-270 | Executing a folder makes only script calls. Bootstrap scripts run outside a transaction and never on DDL; version scripts run in a transaction and never on master. |
| CreateDB.ScriptEventsCons | src/nChain.CreateDB/CreateDB.cs:229-231 | The calls for `[f] + files` are f's call followed by the calls for `files`. |
| CreateDB.FoldersEffectStep | src/nChain.CreateDB/CreateDB.cs:73-85 | A non-empty folder list processes its first folder, then either stops with the whole list pending or continues with the rest. |
| CreateDB.ScriptsEffectStep | src/nChain.CreateDB/CreateDB.cs:229-245 | A non-empty list runs its first script, then either stops with the whole list pending or continues with the rest. |
| CreateDB.ScriptsEffect | src/nChain.CreateDB/CreateDB.cs:229-245 | Running scripts never changes the version table. |
| CreateDB.FirstFailure | src/nChain.CreateDB/CreateDB.cs:229-233 | The index of the first failing script, or the length: every script before it succeeds. |
| CreateDB.AttemptedIsPrefix | src/nChain.CreateDB/CreateDB.cs:229-233 | The scripts started are the prefix up to and including the first failure. |
| CreateDB.ScriptsTrace | src/nChain.CreateDB/CreateDB.cs:229-245 | The calls appended are exactly one script call per attempted script, in order. |
| CreateDB.ScriptsOutcome | src/nChain.CreateDB/CreateDB.cs:229-245 | Failure happens exactly when some script fails. The remaining list is the failing script and every later one. |
| CreateDB.ProbeOrder | src/nChain.CreateDB/CreateDB.cs:103-118 | The DDL probe runs first. The system probe runs, once, exactly when a system string exists and the DDL probe did not answer "exists". A DDL exception escapes only without a system string. |
| CreateDB.BootstrapOnlyWhenMissing | src/nChain.CreateDB/CreateDB.cs:131-139 | When the database exists, no bootstrap script runs. |
| CreateDB.SeededCalls | src/nChain.CreateDB/CreateDB.cs:207-213 | Seeding appends create-table, `StartUpdating(0)` and `FinishUpdating(0)`. |
| CreateDB.BootstrapSeedsVersionZero | src/nChain.CreateDB/CreateDB.cs:141-151 | A successful bootstrap on an empty table leaves version 0 current and idle. |
| CreateDB.BootstrapFailureTouchesNoVersion | src/nChain.CreateDB/CreateDB.cs:127-158 | A failing bootstrap changes no row and only appends probes and scripts. |
| CreateDB.BlockedFolderTouchesNothing | src/nChain.CreateDB/CreateDB.cs:173-183 | A current row left `updating` blocks the folder: only the version read happens. |
| CreateDB.UpToDateFolderSkipped | src/nChain.CreateDB/CreateDB.cs:185-186 | A folder at or below the installed version is skipped and counts as success. |
| CreateDB.AppliedFolder | src/nChain.CreateDB/CreateDB.cs:186-195 | A newer folder whose scripts all succeed produces the trace read, `StartUpdating(v)`, every script, `FinishUpdating(v)`. Version v becomes current and idle. |
| CreateDB.FailedFolderRollsBack | src/nChain.CreateDB/CreateDB.cs:188-193 | A newer folder with a failing script produces the trace read, start, scripts up to the failure, `RemoveVersion(v)`, with no `FinishUpdating`. The table ends exactly as before. |
| CreateDB.BadFolderNameTouchesNothing | src/nChain.CreateDB/CreateDB.cs:185-203 | A non-numeric folder name fails after the version read and changes nothing. |
| CreateDB.FolderRaisesVersion | src/nChain.CreateDB/CreateDB.cs:185-195 | After a successful folder the current version is idle and at least both the old version and the folder's number. |
| CreateDB.StopsAtFirstFailedFolder | src/nChain.CreateDB/CreateDB.cs:73-85 | The pending list is the first failing folder and every later one. Every earlier folder succeeded. Nothing after the failing folder touches the store. |
| CreateDB.FoldersRaiseVersion | src/nChain.CreateDB/CreateDB.cs:73-85 | After a successful pass the current version is idle and at least every folder's number. |
| CreateDB.UpToDateFoldersSkipped | src/nChain.CreateDB/CreateDB.cs:185-186 | Folders all at or below an idle version change no row and add one version read each. |
| CreateDB.RerunIsNoOp | src/nChain.CreateDB/CreateDB.cs:73-85 | A second run of the folders after a successful one changes nothing (idempotence). |
| CreateDB.MissingRootTouchesNothing | src/nChain.CreateDB/DBFolders.cs:25-26 | A missing scripts root fails the run before any database call. |
| CreateDB.FoldersNeverProbe | src/nChain.CreateDB/CreateDB.cs:73-85 | The folder loop only appends to the trace and never probes. |
| CreateDB.FolderNeverProbes | src/nChain.CreateDB/CreateDB.cs:163-205 | One version folder only appends to the trace and never probes. |
| CreateDB.BootstrapGate | src/nChain.CreateDB/CreateDB.cs:56 | Without a non-empty master string, or without a bootstrap folder, the database is never probed. |
| CreateDB.BootstrapFailureStopsRun | src/nChain.CreateDB/CreateDB.cs:60-68 | A failing bootstrap ends the run with every version folder pending and no row changed. |
| CreateDB.CreateDB.constructor | src/nChain.CreateDB/CreateDB.cs:28-43 | The engine keeps its inputs, and its script lister is `GetScripts` on the file system. |
| CreateDB.CreateDB.CreateDatabase | src/nChain.CreateDB/CreateDB.cs:45-95 | Result and new store equal `CreateDatabaseEffect` of the old store. |
| CreateDB.CreateDB.DatabaseExists | src/nChain.CreateDB/CreateDB.cs:97-120 | Result and new store equal `ExistsEffect`. |
| CreateDB.CreateDB.ProcessDBFolder | src/nChain.CreateDB/CreateDB.cs:122-161 | Result and new store equal `DBFolderEffect`. |
| CreateDB.CreateDB.ProcessScriptFolder | src/nChain.CreateDB/CreateDB.cs:163-205 | Result and new store equal `ScriptFolderEffect`. |
| CreateDB.CreateDB.CreateVersionTable | src/nChain.CreateDB/CreateDB.cs:207-213 | The new store is `Seeded` of the old one. |
| CreateDB.CreateDB.ExecuteScripts | src/nChain.CreateDB/CreateDB.cs:215-256 | Result and new store equal `ScriptsEffect` over the folder's scripts. The remaining list is gathered by the inner loop. |
| CreateDB.CreateDB.ExecuteScript | src/nChain.CreateDB/CreateDB.cs:258-279 | Returns the oracle's verdict on the script's tier and appends exactly that script call. |

## Left out

- `ScriptPathTools.FindScripts` is left out. It walks up from the executing assembly's location, which is file-system I/O. The scripts root is an input (`FileSystem.rootExists`, `directories`, `files`).
- **Logging, error messages and `errorMessageShort`.** The model keeps only what the messages convey: which folders or scripts are still pending. Results are datatypes.
- **The data-access layer.** `DBPostgresDAL`, `DBFactory` and `ICreateDB` are not part of this model. `IDB` calls are the `VersionStore.Database` methods with these assumed row semantics:
  - one row per version;
  - `GetCurrentVersion` reports the highest row;
  - `StartUpdating` inserts the row as updating, `FinishUpdating` clears the flag, `RemoveVersion` deletes the row.
- **Database exceptions.** Only probes (`Probe.Fault`) and scripts (`scriptSucceeds`) can fail in the model. Exceptions from `GetCurrentVersion`, `StartUpdating`, `FinishUpdating`, `RemoveVersion` and `CreateVersionTable` are not modelled.
- **Scripts touching the version table.** Scripts are assumed not to change the version table themselves.
- **Concurrency.** The race between two simultaneous runs on `StartUpdating` is not modelled; runs are sequential.
- `IsUsingMasterConnectionString` is not part of this model: `ScriptPathTools.cs` does not define it. The engine takes it as a function input.
- **The system connection string.** It is taken to exist exactly when a master string is given, since `GetConnectionStringWithDefaultDatabaseName` always yields a non-empty string. Its text is not modelled.
- **Comparison and case.** `String.CompareTo` is culture-sensitive in .NET; the model uses ordinal comparison. `ToLower` is the invariant-culture ASCII mapping only.
- **Number parsing.** `Int32.Parse`/`TryParse` is modelled as an optional sign followed by ASCII digits. Surrounding white space and culture-specific signs are not accepted.
- **`FileInfo` exceptions.** A `FileInfo` or `DirectoryInfo` constructor that throws on an invalid path would leave the comparers comparing the unstripped names. This is not modelled: paths are always valid.
- `Directory.GetFiles` pattern matching is modelled as a case-sensitive suffix test. The short-name quirks of three-letter extensions (`*.sql` also matching `.sqlx`) are not modelled.
- `List.Sort` is an unstable introsort in .NET. The model uses a stable insertion sort. The order .NET produces may differ from the model's wherever the comparer is not a strict total order: for names that compare 0 without being equal, such as `01_a.sql` and `1_b.sql` (`ScriptNameSorter.LeadingZeroTie`), and for mixed numbered and unnumbered names, where the comparer is not transitive (`ScriptNameSorter.MixedNamesCycle`). `CreateDB.ScriptsTrace` fixes one order that .NET does not promise.
- CreateDB.ScriptsSorted: states only that neighbouring scripts are in comparer order, not full order. The comparer is not transitive, so full order does not hold in general. `ListSort.NeighboursOrderedIsOrdered` gives full order where the comparer is transitive on the scripts, e.g. when all are numbered.
- `VersionFolderNameSorter.Compare` is modelled and its properties proved, but it is not wired to any caller: `DirectoryHelper.GetDirectories`, the one place that might sort with it, is not part of this model.
- **Path separators.** `Text.IsSeparator` treats both `/` and `\` as separators, as .NET does on Windows. On Unix, `Path.GetFileName` and `DirectoryInfo.Name` split only on `/`, so a name such as `dir\1` stays whole there. The model does not capture the Unix behaviour.
- **Trailing separators.** `DirectoryInfo.Name`, used by `VersionFolderNameSorter`, drops a trailing separator: it gives `1` for `a/1/`. The model strips with `GetFileName`, which gives the empty name there. Enumerated directories carry no trailing separator, so only direct calls on such paths differ.
- **A master-marked version script with no master string.** `CreateDB.ScriptTier` sends it to `System` even when no master connection string was given. In the code, `connectionStringSystem` is then null (`CreateDB.cs:40-41`, `269`). What the data-access layer does with a null connection string is not part of this model: the `scriptSucceeds` oracle decides the outcome, and may report success.
- **Encoding and timeout.** Script encoding detection (`DirectoryHelper.GetSqlScriptFileEncoding`) and the connection timeout are not modelled.
- `CreateDB.Config`: the engine's configuration passes the classifier, the script lister and the folder-number parser as function values. The engine instantiates them with `ScriptPathTools.IsUsingSystemConnectionString`, `GetScripts` and `FolderVersion`. The effect lemmas hold for any such functions.

=== FILE: create_db.dfy ===
/**
 * The migration engine. `CreateDatabase` discovers the folders under the
 * scripts root, runs the bootstrap folder `00_CreateDB` when a master
 * connection string is configured (its scripts only when the database does
 * not exist yet), seeds the version table with version 0 when it is empty,
 * and then applies each version folder whose number is above the installed
 * version, bracketing its scripts with `StartUpdating`/`FinishUpdating`, or
 * `RemoveVersion` when a script fails. The run stops at the first failure.
 *
 * Every method is proved against a function on the store (`...Effect`), and
 * the properties of the runner are lemmas about those functions.
 */
module CreateDB {
  import opened Text
  import opened VersionStore
  import ScriptPathTools
  import ScriptNameSorter
  import ListSort
  import DBFolders

  /**
   * The file system as the runner reads it: whether the scripts root exists,
   * the listing of its sub-directories, in whatever order the directory
   * helper yields them, and the files of every existing folder.
   */
  datatype FileSystem = FileSystem(rootExists: bool, directories: seq<string>, files: map<string, seq<string>>)

  /**
   * The engine's fixed inputs and the database's oracles. `scripts` is what
   * `GetScripts` returns for a folder and `folderVersion` the folder's last
   * name read as a 32-bit integer (`None` when that read throws);
   * the engine instantiates both, and the marker classifiers, with the
   * functions of this model (`CreateDB.Configuration`).
   */
  datatype Config = Config(
    projectName: string,
    connectionStringMaster: Option<string>,
    isUsingSystemConnectionString: string -> bool,
    isUsingMasterConnectionString: string -> bool,
    fs: FileSystem,
    scripts: string -> seq<string>,
    folderVersion: string -> Option<int>,
    probe: Tier -> Probe,
    scriptSucceeds: (string, Tier) -> bool)

  /** A store after an operation, with what the operation returned. */
  datatype After<T> = After(store: Store, value: T)

  datatype ScriptsResult = ScriptsOk | ScriptFailed(remaining: seq<string>)

  datatype DBFolderResult = DBFolderDone | ProbeFailed | BootstrapScriptsFailed(remaining: seq<string>)

  datatype FolderResult = FolderDone | Blocked(installed: int) | BadFolderName | ScriptsFailed(remaining: seq<string>)

  datatype FoldersResult = AllApplied | FolderFailed(pending: seq<string>)

  datatype RunResult = Created | RootMissing | BootstrapFailed(pending: seq<string>) | VersionFailed(pending: seq<string>)

  /** A system connection string exists exactly when a master one was given. */
  predicate HasSystemConnection(cfg: Config) {
    cfg.connectionStringMaster.Some?
  }

  /** The bootstrap is enabled when a master connection string is given and is not empty. */
  predicate BootstrapEnabled(cfg: Config) {
    cfg.connectionStringMaster.Some? && cfg.connectionStringMaster.value != ""
  }

  // ---- scripts of a folder ----

  /** The files of a folder listing whose names end with `ext`, in listing order. */
  function WithExtension(files: seq<string>, ext: string): (r: seq<string>)
    ensures forall f :: multiset(r)[f] == if EndsWith(f, ext) then multiset(files)[f] else 0
    decreases |files|
  {
    if files == [] then []
    else
      var init := WithExtension(files[..|files| - 1], ext);
      var last := files[|files| - 1];
      assert files == files[..|files| - 1] + [last];
      if EndsWith(last, ext) then init + [last] else init
  }

  predicate IsScriptFile(f: string) {
    EndsWith(f, ".ddl") || EndsWith(f, ".sql") || EndsWith(f, ".txt")
  }

  /**
   * The `.ddl`, `.sql` and `.txt` files of a folder, sorted by script name:
   * each script file of the listing occurs as often as in the listing, and no
   * other file occurs.
   */
  function GetSqlAndTxtScripts(fs: FileSystem, scriptsFolder: string): (r: seq<string>)
    requires scriptsFolder in fs.files
    ensures forall f :: multiset(r)[f] == if IsScriptFile(f) then multiset(fs.files[scriptsFolder])[f] else 0
  {
    var listing := fs.files[scriptsFolder];
    var files := WithExtension(listing, ".ddl") + WithExtension(listing, ".sql") + WithExtension(listing, ".txt");
    ScriptFilesOfListing(listing);
    ListSort.Sort(files, ScriptNameSorter.Compare)
  }

  /** Listing the three extensions one after the other collects exactly the script files. */
  lemma ScriptFilesOfListing(listing: seq<string>)
    ensures forall f ::
      multiset(WithExtension(listing, ".ddl") + WithExtension(listing, ".sql") + WithExtension(listing, ".txt"))[f]
      == if IsScriptFile(f) then multiset(listing)[f] else 0
  {
    forall f
      ensures multiset(WithExtension(listing, ".ddl") + WithExtension(listing, ".sql") + WithExtension(listing, ".txt"))[f]
        == if IsScriptFile(f) then multiset(listing)[f] else 0
    {
      OneExtension(f);
    }
  }

  /** The version a folder stands for: its last name read as a 32-bit integer, `None` where that read fails. */
  function FolderVersion(folder: string): (r: Option<int>)
    ensures r.Some? <==> DBFolders.IsVersionFolder(DBFolders.GetLastDirectoryName(folder))
    ensures r.Some? ==> Int32Min <= r.value <= Int32Max
  {
    ParseInt32(GetFileName(folder))
  }

  /** A folder named by the decimal digits of a number stands for that number. */
  lemma FolderVersionOfDecimal(parent: string, sep: char, n: nat)
    requires IsSeparator(sep) && n <= Int32Max
    ensures FolderVersion(parent + [sep] + Decimal(n)) == Some(n)
  {
    DecimalIsName(n);
    FileNameOfJoin(parent, sep, Decimal(n));
    DecimalRoundTrip(n);
  }

  lemma DecimalIsName(n: nat)
    ensures HasNoSeparator(Decimal(n))
  {
    assert AllDigits(Decimal(n));
  }

  /** The scripts of an existing folder, sorted once more; none for a missing one. */
  function GetScripts(fs: FileSystem, scriptsFolder: string): (r: seq<string>)
    ensures scriptsFolder !in fs.files ==> r == []
    ensures scriptsFolder in fs.files ==> multiset(r) == multiset(GetSqlAndTxtScripts(fs, scriptsFolder))
  {
    if scriptsFolder in fs.files then ListSort.Sort(GetSqlAndTxtScripts(fs, scriptsFolder), ScriptNameSorter.Compare)
    else []
  }

  /** A file ends with at most one of the three extensions. */
  lemma OneExtension(f: string)
    ensures !(EndsWith(f, ".ddl") && EndsWith(f, ".sql"))
    ensures !(EndsWith(f, ".ddl") && EndsWith(f, ".txt"))
    ensures !(EndsWith(f, ".sql") && EndsWith(f, ".txt"))
  {
    if |f| >= 4 {
      var tail := f[|f| - 4..];
      assert tail[1] == f[|f| - 3];
      assert tail[3] == f[|f| - 1];
    }
  }

  /**
   * The scripts run for a folder are exactly its `.ddl`, `.sql` and `.txt`
   * files, each as often as it is listed; a missing folder has none.
   */
  lemma ScriptsOfFolder(fs: FileSystem, scriptsFolder: string)
    ensures scriptsFolder !in fs.files ==> GetScripts(fs, scriptsFolder) == []
    ensures scriptsFolder in fs.files ==> forall f ::
      multiset(GetScripts(fs, scriptsFolder))[f] == if IsScriptFile(f) then multiset(fs.files[scriptsFolder])[f] else 0
  {
    if scriptsFolder in fs.files {
      var listing := fs.files[scriptsFolder];
      forall f ensures multiset(GetScripts(fs, scriptsFolder))[f] == if IsScriptFile(f) then multiset(listing)[f] else 0 {
        OneExtension(f);
      }
    }
  }

  /** Neighbouring scripts are in `ScriptNameSorter` order. */
  lemma ScriptsSorted(fs: FileSystem, scriptsFolder: string)
    ensures ListSort.NeighboursOrdered(GetScripts(fs, scriptsFolder), ScriptNameSorter.Compare)
  {
    if scriptsFolder in fs.files {
      ScriptNameSorter.CompareIsAntisymmetric();
      ListSort.SortOrdersNeighbours(GetSqlAndTxtScripts(fs, scriptsFolder), ScriptNameSorter.Compare);
    }
  }

  // ---- executing scripts ----

  /**
   * The connection a script runs on: bootstrap scripts use the system string
   * when they carry the `SYS` marker and the master string otherwise;
   * version scripts use the system string when they carry the master marker
   * and the DDL string otherwise.
   */
  function ScriptTier(cfg: Config, scriptFilename: string, isCreateDBScript: bool): (r: Tier)
    ensures isCreateDBScript ==> r != DDL
    ensures !isCreateDBScript ==> r != Master
  {
    if isCreateDBScript then
      if cfg.isUsingSystemConnectionString(scriptFilename) then System else Master
    else
      if cfg.isUsingMasterConnectionString(scriptFilename) then System else DDL
  }

  /**
   * With the engine's classifier, a bootstrap script runs on the system
   * connection exactly when its file name carries the `SYS` marker, and on the
   * master connection otherwise.
   */
  lemma BootstrapTier(cfg: Config, scriptFilename: string)
    requires cfg.isUsingSystemConnectionString == ScriptPathTools.IsUsingSystemConnectionString
    ensures ScriptTier(cfg, scriptFilename, true)
      == if ScriptPathTools.HasSystemMarker(GetFileName(scriptFilename)) then System else Master
  {
    ScriptPathTools.SystemMarkerExactly(scriptFilename);
  }

  /** A version script marked for master runs on the system connection, any other on DDL. */
  lemma VersionTier(cfg: Config, scriptFilename: string)
    ensures ScriptTier(cfg, scriptFilename, false) == System <==> cfg.isUsingMasterConnectionString(scriptFilename)
    ensures ScriptTier(cfg, scriptFilename, false) == DDL <==> !cfg.isUsingMasterConnectionString(scriptFilename)
  {
  }

  /**
   * The call `ExecuteScript` makes: the script itself, on the tier `ScriptTier`
   * chooses, inside a transaction exactly when it is not a bootstrap script.
   */
  function ScriptEvent(cfg: Config, scriptFilename: string, isCreateDBScript: bool): (r: Event)
    ensures r.ExecuteFileScript? && r.path == scriptFilename
    ensures r.inTransaction <==> !isCreateDBScript
    ensures isCreateDBScript ==> r.tier != DDL
    ensures !isCreateDBScript ==> r.tier != Master
  {
    ExecuteFileScript(scriptFilename, ScriptTier(cfg, scriptFilename, isCreateDBScript), !isCreateDBScript)
  }

  function ScriptEvents(cfg: Config, files: seq<string>, isCreateDBScript: bool): seq<Event> {
    if files == [] then [] else [ScriptEvent(cfg, files[0], isCreateDBScript)] + ScriptEvents(cfg, files[1..], isCreateDBScript)
  }

  /** One script call per file, in order. */
  lemma {:induction false} ScriptEventsAt(cfg: Config, files: seq<string>, isCreateDBScript: bool)
    ensures |ScriptEvents(cfg, files, isCreateDBScript)| == |files|
    ensures forall i :: 0 <= i < |files| ==>
      ScriptEvents(cfg, files, isCreateDBScript)[i] == ScriptEvent(cfg, files[i], isCreateDBScript)
    decreases |files|
  {
    if files != [] {
      ScriptEventsAt(cfg, files[1..], isCreateDBScript);
    }
  }

  /** Script calls are the only calls `ExecuteScripts` makes, all with the same transaction mode. */
  lemma {:induction false} ScriptEventsAreScripts(cfg: Config, files: seq<string>, isCreateDBScript: bool)
    ensures forall e :: e in ScriptEvents(cfg, files, isCreateDBScript) ==>
      e.ExecuteFileScript? && e.inTransaction == !isCreateDBScript
      && (isCreateDBScript ==> e.tier != DDL) && (!isCreateDBScript ==> e.tier != Master)
    decreases |files|
  {
    if files != [] {
      ScriptEventsAreScripts(cfg, files[1..], isCreateDBScript);
    }
  }

  lemma ScriptEventsCons(cfg: Config, f: string, files: seq<string>, isCreateDBScript: bool)
    ensures ScriptEvents(cfg, [f] + files, isCreateDBScript)
      == [ScriptEvent(cfg, f, isCreateDBScript)] + ScriptEvents(cfg, files, isCreateDBScript)
  {
    assert ([f] + files)[1..] == files;
  }

  predicate ScriptSucceeds(cfg: Config, scriptFilename: string, isCreateDBScript: bool) {
    cfg.scriptSucceeds(scriptFilename, ScriptTier(cfg, scriptFilename, isCreateDBScript))
  }

  /** The loop of `ExecuteScripts`: run in order, stop at the first failing script. */
  function ScriptsEffect(cfg: Config, s: Store, files: seq<string>, isCreateDBScript: bool): (r: After<ScriptsResult>)
    ensures r.store.rows == s.rows && r.store.tableExists == s.tableExists
    decreases |files|
  {
    if files == [] then After(s, ScriptsOk)
    else
      var s1 := Call(s, ScriptEvent(cfg, files[0], isCreateDBScript));
      if ScriptSucceeds(cfg, files[0], isCreateDBScript) then ScriptsEffect(cfg, s1, files[1..], isCreateDBScript)
      else After(s1, ScriptFailed(files))
  }

  /** Running a non-empty list is one script call followed by the rest, or the stop at its failure. */
  lemma ScriptsEffectStep(cfg: Config, s: Store, files: seq<string>, isCreateDBScript: bool)
    requires files != []
    ensures var s1 := Call(s, ScriptEvent(cfg, files[0], isCreateDBScript));
      ScriptsEffect(cfg, s, files, isCreateDBScript)
      == if ScriptSucceeds(cfg, files[0], isCreateDBScript) then ScriptsEffect(cfg, s1, files[1..], isCreateDBScript)
         else After(s1, ScriptFailed(files))
  {
  }

  /** The same step, for the suffix of the list from index `i`. */
  lemma ScriptsEffectAt(cfg: Config, s: Store, files: seq<string>, i: nat, isCreateDBScript: bool)
    requires i < |files|
    ensures var s1 := Call(s, ScriptEvent(cfg, files[i], isCreateDBScript));
      ScriptsEffect(cfg, s, files[i..], isCreateDBScript)
      == if ScriptSucceeds(cfg, files[i], isCreateDBScript) then ScriptsEffect(cfg, s1, files[i + 1..], isCreateDBScript)
         else After(s1, ScriptFailed(files[i..]))
  {
    ScriptsEffectStep(cfg, s, files[i..], isCreateDBScript);
    assert files[i..][0] == files[i];
    assert files[i..][1..] == files[i + 1..];
  }

  /** The index of the first failing script, or `|files|` when all succeed. */
  function FirstFailure(cfg: Config, files: seq<string>, isCreateDBScript: bool): (k: nat)
    ensures k <= |files|
    ensures forall i :: 0 <= i < k ==> ScriptSucceeds(cfg, files[i], isCreateDBScript)
    ensures k < |files| ==> !ScriptSucceeds(cfg, files[k], isCreateDBScript)
  {
    if files == [] then 0
    else if !ScriptSucceeds(cfg, files[0], isCreateDBScript) then 0
    else 1 + FirstFailure(cfg, files[1..], isCreateDBScript)
  }

  /** The scripts `ExecuteScripts` starts: all of them up to and including the first failing one. */
  function Attempted(cfg: Config, files: seq<string>, isCreateDBScript: bool): seq<string> {
    if files == [] then []
    else if !ScriptSucceeds(cfg, files[0], isCreateDBScript) then [files[0]]
    else [files[0]] + Attempted(cfg, files[1..], isCreateDBScript)
  }

  /** The attempted scripts are the prefix of the list that ends at the first failure. */
  lemma {:induction false} AttemptedIsPrefix(cfg: Config, files: seq<string>, isCreateDBScript: bool)
    ensures var k := FirstFailure(cfg, files, isCreateDBScript);
      Attempted(cfg, files, isCreateDBScript) == files[..if k < |files| then k + 1 else k]
    decreases |files|
  {
    if files != [] && ScriptSucceeds(cfg, files[0], isCreateDBScript) {
      AttemptedIsPrefix(cfg, files[1..], isCreateDBScript);
      var k := FirstFailure(cfg, files, isCreateDBScript);
      var n := if k < |files| then k + 1 else k;
      assert files[..n] == [files[0]] + files[1..][..n - 1];
    }
  }

  /**
   * `ExecuteScripts` runs the attempted scripts, each once and in order, and
   * nothing else.
   */
  lemma {:induction false} ScriptsTrace(cfg: Config, s: Store, files: seq<string>, isCreateDBScript: bool)
    ensures ScriptsEffect(cfg, s, files, isCreateDBScript).store.calls
      == s.calls + ScriptEvents(cfg, Attempted(cfg, files, isCreateDBScript), isCreateDBScript)
    decreases |files|
  {
    if files != [] {
      var s1 := Call(s, ScriptEvent(cfg, files[0], isCreateDBScript));
      if ScriptSucceeds(cfg, files[0], isCreateDBScript) {
        ScriptsTrace(cfg, s1, files[1..], isCreateDBScript);
        var rest := Attempted(cfg, files[1..], isCreateDBScript);
        assert Attempted(cfg, files, isCreateDBScript) == [files[0]] + rest;
        ScriptEventsCons(cfg, files[0], rest, isCreateDBScript);
      }
    }
  }

  /**
   * `ExecuteScripts` fails exactly when some script fails, and then reports
   * the first failing script and every later one as remaining.
   */
  lemma {:induction false} ScriptsOutcome(cfg: Config, s: Store, files: seq<string>, isCreateDBScript: bool)
    ensures var k := FirstFailure(cfg, files, isCreateDBScript);
      ScriptsEffect(cfg, s, files, isCreateDBScript).value == (if k < |files| then ScriptFailed(files[k..]) else ScriptsOk)
    decreases |files|
  {
    if files != [] {
      var s1 := Call(s, ScriptEvent(cfg, files[0], isCreateDBScript));
      if ScriptSucceeds(cfg, files[0], isCreateDBScript) {
        ScriptsOutcome(cfg, s1, files[1..], isCreateDBScript);
        var k := FirstFailure(cfg, files, isCreateDBScript);
        assert files[1..][k - 1..] == files[k..];
      } else {
        assert files[0..] == files;
      }
    }
  }

  // ---- probing ----

  /** `DatabaseExists`: the DDL probe first, the system probe as a fallback. */
  function ExistsEffect(cfg: Config, s: Store): After<Probe> {
    var s1 := Probed(s, DDL);
    var ddl := cfg.probe(DDL);
    if ddl.Fault? && !HasSystemConnection(cfg) then After(s1, Fault)
    else if ddl == Answer(true) || !HasSystemConnection(cfg) then After(s1, ddl)
    else After(Probed(s1, System), cfg.probe(System))
  }

  /**
   * The DDL string is always probed first; the system string is probed, once,
   * exactly when one exists and the DDL probe did not answer "exists". An
   * exception of the DDL probe escapes only when there is no system string.
   */
  lemma ProbeOrder(cfg: Config, s: Store)
    ensures var r := ExistsEffect(cfg, s);
      var fallback := HasSystemConnection(cfg) && cfg.probe(DDL) != Answer(true);
      && r.store.rows == s.rows && r.store.tableExists == s.tableExists
      && r.store.calls == s.calls + [ProbeDatabase(DDL)] + (if fallback then [ProbeDatabase(System)] else [])
      && r.value == (if fallback then cfg.probe(System) else cfg.probe(DDL))
  {
  }

  // ---- the bootstrap folder ----

  /** `CreateVersionTable`: create the table and install version 0. */
  function Seeded(s: Store): Store {
    Finished(Started(TableCreated(s), 0), 0)
  }

  /** `ProcessDBFolder`. */
  ghost function DBFolderEffect(cfg: Config, s: Store, dbFolder: string): After<DBFolderResult> {
    var e := ExistsEffect(cfg, s);
    if e.value.Fault? then After(e.store, ProbeFailed)
    else
      var run := if e.value.found then After(e.store, ScriptsOk)
                 else ScriptsEffect(cfg, e.store, cfg.scripts(dbFolder), true);
      if run.value.ScriptFailed? then After(run.store, BootstrapScriptsFailed(run.value.remaining))
      else
        var s2 := VersionRead(run.store);
        if Current(run.store.rows).version == -1 then After(Seeded(s2), DBFolderDone)
        else After(s2, DBFolderDone)
  }

  /** Bootstrap scripts run only when the probe says the database is missing. */
  lemma BootstrapOnlyWhenMissing(cfg: Config, s: Store, dbFolder: string)
    requires ExistsEffect(cfg, s).value == Answer(true)
    ensures var r := DBFolderEffect(cfg, s, dbFolder);
      forall i :: |s.calls| <= i < |r.store.calls| ==> !r.store.calls[i].ExecuteFileScript?
  {
    var e := ExistsEffect(cfg, s);
    ProbeOrder(cfg, s);
    var s2 := VersionRead(e.store);
    SeededCalls(s2);
  }

  lemma SeededCalls(s: Store)
    ensures Seeded(s).calls == s.calls + [CreateTable, StartUpdating(0), FinishUpdating(0)]
  {
  }

  /**
   * When the bootstrap folder succeeds on an empty version table, the table
   * is created and seeded so that version 0 is current and idle.
   */
  lemma BootstrapSeedsVersionZero(cfg: Config, s: Store, dbFolder: string)
    requires s.rows == map[]
    requires DBFolderEffect(cfg, s, dbFolder).value.DBFolderDone?
    ensures var r := DBFolderEffect(cfg, s, dbFolder);
      && Current(r.store.rows) == Row(0, false)
      && r.store.tableExists
      && r.store.calls[|r.store.calls| - 4..] == [ReadVersion, CreateTable, StartUpdating(0), FinishUpdating(0)]
  {
    var e := ExistsEffect(cfg, s);
    ProbeOrder(cfg, s);
    var run := if e.value.found then After(e.store, ScriptsOk)
               else ScriptsEffect(cfg, e.store, cfg.scripts(dbFolder), true);
    var s2 := VersionRead(run.store);
    StartThenFinish(TableCreated(s2), 0);
    SeededCalls(s2);
  }

  /**
   * A failing bootstrap folder changes no version row and makes no version
   * call: its trace holds only probes and bootstrap scripts.
   */
  lemma BootstrapFailureTouchesNoVersion(cfg: Config, s: Store, dbFolder: string)
    requires !DBFolderEffect(cfg, s, dbFolder).value.DBFolderDone?
    ensures var r := DBFolderEffect(cfg, s, dbFolder);
      && r.store.rows == s.rows
      && s.calls <= r.store.calls
      && forall e :: e in r.store.calls[|s.calls|..] ==> e.ProbeDatabase? || e.ExecuteFileScript?
  {
    var e := ExistsEffect(cfg, s);
    ProbeOrder(cfg, s);
    var probes := e.store.calls[|s.calls|..];
    assert e.store.calls == s.calls + probes;
    if e.value.Answer? && !e.value.found {
      var files := cfg.scripts(dbFolder);
      var att := Attempted(cfg, files, true);
      ScriptsTrace(cfg, e.store, files, true);
      ScriptEventsAreScripts(cfg, att, true);
      var r := DBFolderEffect(cfg, s, dbFolder);
      assert r.store.calls == s.calls + (probes + ScriptEvents(cfg, att, true));
    }
  }

  // ---- version folders ----

  /** `ProcessScriptFolder`. */
  ghost function ScriptFolderEffect(cfg: Config, s: Store, scriptFolder: string): After<FolderResult> {
    var installed := Current(s.rows);
    var s1 := VersionRead(s);
    if installed.updating then After(s1, Blocked(installed.version))
    else
      match cfg.folderVersion(scriptFolder)
      case None => After(s1, BadFolderName)
      case Some(newVersion) =>
        if installed.version < newVersion then
          var run := ScriptsEffect(cfg, Started(s1, newVersion), cfg.scripts(scriptFolder), false);
          if run.value.ScriptFailed? then After(Removed(run.store, newVersion), ScriptsFailed(run.value.remaining))
          else After(Finished(run.store, newVersion), FolderDone)
        else After(s1, FolderDone)
  }

  /**
   * A version row left `updating` blocks the folder: only the version is
   * read, no row changes and no script runs.
   */
  lemma BlockedFolderTouchesNothing(cfg: Config, s: Store, scriptFolder: string)
    requires Current(s.rows).updating
    ensures var r := ScriptFolderEffect(cfg, s, scriptFolder);
      r.value == Blocked(Current(s.rows).version) && r.store.rows == s.rows && r.store.calls == s.calls + [ReadVersion]
  {
  }

  /** A folder at or below the installed version is skipped and counts as success. */
  lemma UpToDateFolderSkipped(cfg: Config, s: Store, scriptFolder: string, v: int)
    requires !Current(s.rows).updating
    requires cfg.folderVersion(scriptFolder) == Some(v) && v <= Current(s.rows).version
    ensures var r := ScriptFolderEffect(cfg, s, scriptFolder);
      r.value == FolderDone && r.store.rows == s.rows && r.store.calls == s.calls + [ReadVersion]
  {
  }

  /**
   * A folder above the installed version whose scripts all succeed: the trace
   * is the version read, `StartUpdating(v)`, every script in order, then
   * `FinishUpdating(v)`, and `v` becomes the current, idle version.
   */
  lemma AppliedFolder(cfg: Config, s: Store, scriptFolder: string, v: int)
    requires !Current(s.rows).updating
    requires cfg.folderVersion(scriptFolder) == Some(v) && Current(s.rows).version < v
    requires FirstFailure(cfg, cfg.scripts(scriptFolder), false) == |cfg.scripts(scriptFolder)|
    ensures var r := ScriptFolderEffect(cfg, s, scriptFolder);
      && r.value == FolderDone
      && r.store.calls == s.calls + [ReadVersion, StartUpdating(v)]
           + ScriptEvents(cfg, cfg.scripts(scriptFolder), false) + [FinishUpdating(v)]
      && r.store.rows == s.rows[v := false]
      && Current(r.store.rows) == Row(v, false)
  {
    var files := cfg.scripts(scriptFolder);
    var s2 := Started(VersionRead(s), v);
    ScriptsTrace(cfg, s2, files, false);
    ScriptsOutcome(cfg, s2, files, false);
    AttemptedIsPrefix(cfg, files, false);
    assert files[..|files|] == files;
    var run := ScriptsEffect(cfg, s2, files, false);
    StartThenFinish(VersionRead(s), v);
    assert Finished(run.store, v).rows == Finished(s2, v).rows;
  }

  /**
   * A folder above the installed version with a failing script: the scripts
   * run up to the failing one, `RemoveVersion(v)` follows and `FinishUpdating`
   * is never called; the version table is exactly as before.
   */
  lemma FailedFolderRollsBack(cfg: Config, s: Store, scriptFolder: string, v: int)
    requires !Current(s.rows).updating
    requires cfg.folderVersion(scriptFolder) == Some(v) && Current(s.rows).version < v
    requires FirstFailure(cfg, cfg.scripts(scriptFolder), false) < |cfg.scripts(scriptFolder)|
    ensures var files := cfg.scripts(scriptFolder);
      var k := FirstFailure(cfg, files, false);
      var r := ScriptFolderEffect(cfg, s, scriptFolder);
      && r.value == ScriptsFailed(files[k..])
      && r.store.calls == s.calls + [ReadVersion, StartUpdating(v)]
           + ScriptEvents(cfg, files[..k + 1], false) + [RemoveVersion(v)]
      && r.store.rows == s.rows
      && FinishUpdating(v) !in r.store.calls[|s.calls|..]
  {
    var files := cfg.scripts(scriptFolder);
    var s1 := VersionRead(s);
    var s2 := Started(s1, v);
    ScriptsTrace(cfg, s2, files, false);
    ScriptsOutcome(cfg, s2, files, false);
    assert v !in s.rows by {
      if s.rows != map[] {
        assert forall w :: w in s.rows ==> w <= Current(s.rows).version;
      }
    }
    RemoveUndoesStart(s1, v);
    AttemptedIsPrefix(cfg, files, false);
    var k := FirstFailure(cfg, files, false);
    ScriptEventsAreScripts(cfg, files[..k + 1], false);
    var r := ScriptFolderEffect(cfg, s, scriptFolder);
    var tail := [ReadVersion, StartUpdating(v)] + ScriptEvents(cfg, files[..k + 1], false) + [RemoveVersion(v)];
    assert r.store.calls == s.calls + tail;
    assert r.store.calls[|s.calls|..] == tail;
  }

  /** A folder whose name is not a number fails after reading the version, changing nothing. */
  lemma BadFolderNameTouchesNothing(cfg: Config, s: Store, scriptFolder: string)
    requires !Current(s.rows).updating && cfg.folderVersion(scriptFolder).None?
    ensures var r := ScriptFolderEffect(cfg, s, scriptFolder);
      r.value == BadFolderName && r.store.rows == s.rows && r.store.calls == s.calls + [ReadVersion]
  {
  }

  /**
   * After a successful folder the installed version is idle and at least both
   * the previous version and the folder's number.
   */
  lemma FolderRaisesVersion(cfg: Config, s: Store, scriptFolder: string)
    requires ScriptFolderEffect(cfg, s, scriptFolder).value == FolderDone
    ensures var r := ScriptFolderEffect(cfg, s, scriptFolder);
      var v := cfg.folderVersion(scriptFolder);
      && v.Some?
      && !Current(r.store.rows).updating
      && Current(s.rows).version <= Current(r.store.rows).version
      && v.value <= Current(r.store.rows).version
  {
    var v := cfg.folderVersion(scriptFolder).value;
    if Current(s.rows).version < v {
      var files := cfg.scripts(scriptFolder);
      var s2 := Started(VersionRead(s), v);
      var run := ScriptsEffect(cfg, s2, files, false);
      StartThenFinish(VersionRead(s), v);
      assert Finished(run.store, v).rows == Finished(s2, v).rows;
    }
  }

  // ---- the folder loop ----

  /** The loop of `CreateDatabase` over the version folders. */
  ghost function FoldersEffect(cfg: Config, s: Store, folders: seq<string>): (r: After<FoldersResult>)
    decreases |folders|
  {
    if folders == [] then After(s, AllApplied)
    else
      var f := ScriptFolderEffect(cfg, s, folders[0]);
      if f.value != FolderDone then After(f.store, FolderFailed(folders))
      else FoldersEffect(cfg, f.store, folders[1..])
  }

  /** Running a non-empty folder list is the first folder followed by the rest, or the stop at its failure. */
  lemma FoldersEffectStep(cfg: Config, s: Store, folders: seq<string>)
    requires folders != []
    ensures var f := ScriptFolderEffect(cfg, s, folders[0]);
      FoldersEffect(cfg, s, folders)
      == if f.value != FolderDone then After(f.store, FolderFailed(folders)) else FoldersEffect(cfg, f.store, folders[1..])
  {
  }

  /** The same step, for the suffix of the folder list from index `i`. */
  lemma FoldersEffectAt(cfg: Config, s: Store, folders: seq<string>, i: nat)
    requires i < |folders|
    ensures var f := ScriptFolderEffect(cfg, s, folders[i]);
      FoldersEffect(cfg, s, folders[i..])
      == if f.value != FolderDone then After(f.store, FolderFailed(folders[i..])) else FoldersEffect(cfg, f.store, folders[i + 1..])
  {
    FoldersEffectStep(cfg, s, folders[i..]);
    assert folders[i..][0] == folders[i];
    assert folders[i..][1..] == folders[i + 1..];
  }

  /**
   * The loop stops at the first failing folder: the pending list is that
   * folder and every later one, every earlier folder succeeded, and nothing
   * after the failing folder touches the store.
   */
  lemma {:induction false} StopsAtFirstFailedFolder(cfg: Config, s: Store, folders: seq<string>)
    requires FoldersEffect(cfg, s, folders).value.FolderFailed?
    ensures var r := FoldersEffect(cfg, s, folders);
      var k := |folders| - |r.value.pending|;
      && 0 <= k < |folders| && r.value.pending == folders[k..]
      && var before := FoldersEffect(cfg, s, folders[..k]);
      && before.value == AllApplied
      && ScriptFolderEffect(cfg, before.store, folders[k]).value != FolderDone
      && r.store == ScriptFolderEffect(cfg, before.store, folders[k]).store
    decreases |folders|
  {
    var f := ScriptFolderEffect(cfg, s, folders[0]);
    if f.value == FolderDone {
      StopsAtFirstFailedFolder(cfg, f.store, folders[1..]);
      var r := FoldersEffect(cfg, s, folders);
      var k := |folders| - |r.value.pending|;
      assert folders[1..][k - 1..] == folders[k..];
      assert folders[..k][1..] == folders[1..][..k - 1];
      assert folders[1..][k - 1] == folders[k];
    } else {
      assert folders[..0] == [];
      assert folders[0..] == folders;
    }
  }

  /** A successful pass leaves every folder at or below an idle current version. */
  lemma {:induction false} FoldersRaiseVersion(cfg: Config, s: Store, folders: seq<string>)
    requires FoldersEffect(cfg, s, folders).value == AllApplied
    ensures var r := FoldersEffect(cfg, s, folders);
      && Current(s.rows).version <= Current(r.store.rows).version
      && (folders != [] ==> !Current(r.store.rows).updating)
      && forall i :: 0 <= i < |folders| ==>
           cfg.folderVersion(folders[i]).Some?
           && cfg.folderVersion(folders[i]).value <= Current(r.store.rows).version
    decreases |folders|
  {
    if folders != [] {
      var f := ScriptFolderEffect(cfg, s, folders[0]);
      FolderRaisesVersion(cfg, s, folders[0]);
      FoldersRaiseVersion(cfg, f.store, folders[1..]);
      if folders[1..] == [] {
        assert FoldersEffect(cfg, f.store, folders[1..]).store == f.store;
      }
      forall i | 0 <= i < |folders| && i > 0
        ensures cfg.folderVersion(folders[i]).Some?
      {
        assert folders[i] == folders[1..][i - 1];
      }
    }
  }

  /** `n` version reads. */
  function VersionReads(n: nat): (r: seq<Event>)
    ensures |r| == n
  {
    if n == 0 then [] else [ReadVersion] + VersionReads(n - 1)
  }

  /**
   * Folders all at or below an idle current version are skipped: no row
   * changes and the only calls are one version read per folder.
   */
  lemma {:induction false} UpToDateFoldersSkipped(cfg: Config, s: Store, folders: seq<string>)
    requires !Current(s.rows).updating
    requires forall i :: 0 <= i < |folders| ==>
      cfg.folderVersion(folders[i]).Some? && cfg.folderVersion(folders[i]).value <= Current(s.rows).version
    ensures var r := FoldersEffect(cfg, s, folders);
      && r.value == AllApplied && r.store.rows == s.rows
      && r.store.calls == s.calls + VersionReads(|folders|)
    decreases |folders|
  {
    if folders != [] {
      var v := cfg.folderVersion(folders[0]).value;
      UpToDateFolderSkipped(cfg, s, folders[0], v);
      var f := ScriptFolderEffect(cfg, s, folders[0]);
      CurrentOfSameRows(s, f.store);
      forall i | 0 <= i < |folders[1..]|
        ensures cfg.folderVersion(folders[1..][i]).Some?
             && cfg.folderVersion(folders[1..][i]).value <= Current(f.store.rows).version
      {
        assert folders[1..][i] == folders[i + 1];
      }
      UpToDateFoldersSkipped(cfg, f.store, folders[1..]);
      assert s.calls + [ReadVersion] + VersionReads(|folders| - 1) == s.calls + VersionReads(|folders|);
    }
  }

  /**
   * Running the folders again after a successful pass changes no version row
   * and only reads the version: migrating is idempotent.
   */
  lemma RerunIsNoOp(cfg: Config, s: Store, folders: seq<string>)
    requires folders != []
    requires FoldersEffect(cfg, s, folders).value == AllApplied
    ensures var once := FoldersEffect(cfg, s, folders).store;
      var twice := FoldersEffect(cfg, once, folders);
      && twice.value == AllApplied && twice.store.rows == once.rows
      && twice.store.calls == once.calls + VersionReads(|folders|)
  {
    FoldersRaiseVersion(cfg, s, folders);
    UpToDateFoldersSkipped(cfg, FoldersEffect(cfg, s, folders).store, folders);
  }

  // ---- the whole run ----

  function Outcome(r: FoldersResult): RunResult {
    match r
    case AllApplied => Created
    case FolderFailed(pending) => VersionFailed(pending)
  }

  /** `CreateDatabase`. */
  ghost function CreateDatabaseEffect(cfg: Config, s: Store): After<RunResult> {
    if !cfg.fs.rootExists then After(s, RootMissing)
    else AfterWalk(cfg, s, DBFolders.Walk(cfg.projectName, cfg.fs.directories))
  }

  /** What `CreateDatabase` does once the folders are found: the bootstrap folder, then the version folders. */
  ghost function AfterWalk(cfg: Config, s: Store, d: DBFolders.Discovery): After<RunResult> {
    if BootstrapEnabled(cfg) && d.createDBFolder != "" then
      var b := DBFolderEffect(cfg, s, d.createDBFolder);
      if b.value != DBFolderDone then After(b.store, BootstrapFailed(d.scriptFolders))
      else
        var f := FoldersEffect(cfg, b.store, d.scriptFolders);
        After(f.store, Outcome(f.value))
    else
      var f := FoldersEffect(cfg, s, d.scriptFolders);
      After(f.store, Outcome(f.value))
  }

  /** A missing scripts root fails the run before any call to the database. */
  lemma MissingRootTouchesNothing(cfg: Config, s: Store)
    requires !cfg.fs.rootExists
    ensures CreateDatabaseEffect(cfg, s) == After(s, RootMissing)
  {
  }

  /** The folder loop never probes for the database. */
  lemma {:induction false} FoldersNeverProbe(cfg: Config, s: Store, folders: seq<string>)
    ensures var r := FoldersEffect(cfg, s, folders);
      && s.calls <= r.store.calls
      && forall e :: e in r.store.calls[|s.calls|..] ==> !e.ProbeDatabase?
    decreases |folders|
  {
    if folders != [] {
      var f := ScriptFolderEffect(cfg, s, folders[0]);
      FolderNeverProbes(cfg, s, folders[0]);
      if f.value == FolderDone {
        FoldersNeverProbe(cfg, f.store, folders[1..]);
        var r := FoldersEffect(cfg, f.store, folders[1..]);
        assert r.store.calls[|s.calls|..] == f.store.calls[|s.calls|..] + r.store.calls[|f.store.calls|..];
      }
    }
  }

  /** A version folder makes no probe and only appends to the trace. */
  lemma FolderNeverProbes(cfg: Config, s: Store, scriptFolder: string)
    ensures var r := ScriptFolderEffect(cfg, s, scriptFolder);
      && s.calls <= r.store.calls
      && forall e :: e in r.store.calls[|s.calls|..] ==> !e.ProbeDatabase?
  {
    var installed := Current(s.rows);
    var v := cfg.folderVersion(scriptFolder);
    var r := ScriptFolderEffect(cfg, s, scriptFolder);
    if !installed.updating && v.Some? && installed.version < v.value {
      var files := cfg.scripts(scriptFolder);
      var s2 := Started(VersionRead(s), v.value);
      var att := Attempted(cfg, files, false);
      ScriptsTrace(cfg, s2, files, false);
      ScriptEventsAreScripts(cfg, att, false);
      var last := r.store.calls[|r.store.calls| - 1];
      assert last.FinishUpdating? || last.RemoveVersion?;
      var tail := [ReadVersion, StartUpdating(v.value)] + ScriptEvents(cfg, att, false) + [last];
      assert r.store.calls == s.calls + tail;
      NoProbeSuffix(s.calls, tail);
    } else {
      assert r.store.calls == s.calls + [ReadVersion];
      NoProbeSuffix(s.calls, [ReadVersion]);
    }
  }

  /** Appending calls none of which is a probe adds no probe after the old trace. */
  lemma NoProbeSuffix(calls: seq<Event>, tail: seq<Event>)
    requires forall e :: e in tail ==> !e.ProbeDatabase?
    ensures calls <= calls + tail
    ensures forall e :: e in (calls + tail)[|calls|..] ==> !e.ProbeDatabase?
  {
    assert (calls + tail)[|calls|..] == tail;
  }

  /**
   * Without a non-empty master connection string, or without a bootstrap
   * folder, the database is never probed and no bootstrap script runs.
   */
  lemma BootstrapGate(cfg: Config, s: Store)
    requires cfg.fs.rootExists
    requires !BootstrapEnabled(cfg) || DBFolders.Walk(cfg.projectName, cfg.fs.directories).createDBFolder == ""
    ensures var r := CreateDatabaseEffect(cfg, s);
      && s.calls <= r.store.calls
      && forall e :: e in r.store.calls[|s.calls|..] ==> !e.ProbeDatabase?
  {
    FoldersNeverProbe(cfg, s, DBFolders.Walk(cfg.projectName, cfg.fs.directories).scriptFolders);
  }

  /**
   * A failing bootstrap folder ends the run: every version folder is still
   * pending and no version row has changed.
   */
  lemma BootstrapFailureStopsRun(cfg: Config, s: Store)
    requires CreateDatabaseEffect(cfg, s).value.BootstrapFailed?
    ensures var r := CreateDatabaseEffect(cfg, s);
      && r.value.pending == DBFolders.Walk(cfg.projectName, cfg.fs.directories).scriptFolders
      && r.store.rows == s.rows
      && s.calls <= r.store.calls
      && forall e :: e in r.store.calls[|s.calls|..] ==> e.ProbeDatabase? || e.ExecuteFileScript?
  {
    var d := DBFolders.Walk(cfg.projectName, cfg.fs.directories);
    BootstrapFailureTouchesNoVersion(cfg, s, d.createDBFolder);
  }

  /**
   * The migration engine. Its `db` holds the version table; the file system
   * and the master-marker classifier are fixed inputs.
   */
  class CreateDB {
    const projectName: string
    const connectionStringMaster: Option<string>
    const isUsingMasterConnectionString: string -> bool
    const fs: FileSystem
    /** What `GetScripts` returns for each folder of `fs`. */
    const scripts: string -> seq<string>
    const db: Database

    function Configuration(): Config {
      Config.Config(projectName, connectionStringMaster, ScriptPathTools.IsUsingSystemConnectionString,
        isUsingMasterConnectionString, fs, scripts, FolderVersion,
        db.probe, db.scriptSucceeds)
    }

    constructor(projectName: string, connectionStringMaster: Option<string>,
                isUsingMasterConnectionString: string -> bool, fs: FileSystem, db: Database)
      ensures this.projectName == projectName && this.connectionStringMaster == connectionStringMaster
      ensures this.isUsingMasterConnectionString == isUsingMasterConnectionString
      ensures this.fs == fs && this.db == db
      ensures forall folder :: scripts(folder) == GetScripts(fs, folder)
    {
      this.projectName := projectName;
      this.connectionStringMaster := connectionStringMaster;
      this.isUsingMasterConnectionString := isUsingMasterConnectionString;
      this.fs := fs;
      this.scripts := folder => GetScripts(fs, folder);
      this.db := db;
    }

    method CreateDatabase() returns (r: RunResult)
      modifies db
      ensures After(db.State(), r) == CreateDatabaseEffect(Configuration(), old(db.State()))
    {
      ghost var cfg := Configuration();
      ghost var start := db.State();
      var dbFolders := DBFolders.Open(projectName, fs.rootExists, fs.directories);
      if dbFolders == null {
        return RootMissing;
      }
      ghost var d := dbFolders.State();
      assert CreateDatabaseEffect(cfg, start) == AfterWalk(cfg, start, d);
      if connectionStringMaster.Some? && connectionStringMaster.value != "" && dbFolders.createDBFolderToProcess != "" {
        var ok := ProcessDBFolder(dbFolders.createDBFolderToProcess);
        if ok != DBFolderDone {
          return BootstrapFailed(dbFolders.scriptFoldersToProcess);
        }
      }
      var scriptFolders := dbFolders.scriptFoldersToProcess;
      ghost var s0 := db.State();
      assert AfterWalk(cfg, start, d) == After(FoldersEffect(cfg, s0, scriptFolders).store, Outcome(FoldersEffect(cfg, s0, scriptFolders).value));
      for i := 0 to |scriptFolders|
        invariant FoldersEffect(cfg, s0, scriptFolders) == FoldersEffect(cfg, db.State(), scriptFolders[i..])
      {
        FoldersEffectAt(cfg, db.State(), scriptFolders, i);
        var ok := ProcessScriptFolder(scriptFolders[i]);
        if ok != FolderDone {
          return VersionFailed(scriptFolders[i..]);
        }
      }
      return Created;
    }

    method DatabaseExists() returns (r: Probe)
      modifies db
      ensures After(db.State(), r) == ExistsEffect(Configuration(), old(db.State()))
    {
      var success := false;
      var ddl := db.DatabaseExists(DDL);
      if ddl.Fault? {
        if connectionStringMaster.None? {
          return Fault;
        }
      } else {
        success := ddl.found;
      }
      if !success && connectionStringMaster.Some? {
        r := db.DatabaseExists(System);
        return;
      }
      return Answer(success);
    }

    method ProcessDBFolder(dbFolder: string) returns (r: DBFolderResult)
      modifies db
      ensures After(db.State(), r) == DBFolderEffect(Configuration(), old(db.State()), dbFolder)
    {
      var databaseExists := DatabaseExists();
      if databaseExists.Fault? {
        return ProbeFailed;
      }
      if !databaseExists.found {
        var ok := ExecuteScripts(dbFolder, true);
        if !ok.ScriptsOk? {
          return BootstrapScriptsFailed(ok.remaining);
        }
      }
      var currentVersion, _ := db.GetCurrentVersion();
      if currentVersion == -1 {
        CreateVersionTable();
      }
      return DBFolderDone;
    }

    method ProcessScriptFolder(scriptFolder: string) returns (r: FolderResult)
      modifies db
      ensures After(db.State(), r) == ScriptFolderEffect(Configuration(), old(db.State()), scriptFolder)
    {
      var currentVersion, updating := db.GetCurrentVersion();
      if updating {
        return Blocked(currentVersion);
      }
      var newVersion := FolderVersion(scriptFolder);
      if newVersion.None? {
        return BadFolderName;
      }
      if currentVersion < newVersion.value {
        db.StartUpdating(newVersion.value);
        var ok := ExecuteScripts(scriptFolder, false);
        if !ok.ScriptsOk? {
          db.RemoveVersion(newVersion.value);
          return ScriptsFailed(ok.remaining);
        }
        db.FinishUpdating(newVersion.value);
      }
      return FolderDone;
    }

    method CreateVersionTable()
      modifies db
      ensures db.State() == Seeded(old(db.State()))
    {
      db.CreateVersionTable();
      db.StartUpdating(0);
      db.FinishUpdating(0);
    }

    method ExecuteScripts(scriptsFolder: string, isCreateDBScript: bool) returns (r: ScriptsResult)
      modifies db
      ensures After(db.State(), r) == ScriptsEffect(Configuration(), old(db.State()), Configuration().scripts(scriptsFolder), isCreateDBScript)
    {
      var cfg := Configuration();
      var files := cfg.scripts(scriptsFolder);
      ghost var s0 := db.State();
      var i := 0;
      while i < |files|
        invariant 0 <= i <= |files|
        invariant ScriptsEffect(cfg, s0, files, isCreateDBScript) == ScriptsEffect(cfg, db.State(), files[i..], isCreateDBScript)
      {
        ScriptsEffectAt(cfg, db.State(), files, i, isCreateDBScript);
        var ok := ExecuteScript(files[i], isCreateDBScript);
        if !ok {
          ghost var failed := i;
          var remaining: seq<string> := [];
          while i < |files|
            invariant failed <= i <= |files|
            invariant remaining == files[failed..i]
          {
            remaining := remaining + [files[i]];
            i := i + 1;
          }
          assert files[failed..|files|] == files[failed..];
          return ScriptFailed(remaining);
        }
        i := i + 1;
      }
      return ScriptsOk;
    }

    method ExecuteScript(scriptFilename: string, isCreateDBScript: bool) returns (ok: bool)
      modifies db
      ensures ok == ScriptSucceeds(Configuration(), scriptFilename, isCreateDBScript)
      ensures db.State() == Call(old(db.State()), ScriptEvent(Configuration(), scriptFilename, isCreateDBScript))
    {
      var tier := ScriptTier(Configuration(), scriptFilename, isCreateDBScript);
      ok := db.ExecuteFileScript(scriptFilename, tier, !isCreateDBScript);
    }
  }
}

=== FILE: db_folders.dfy ===
/**
 * Folder discovery: the immediate sub-directories of the scripts root are
 * split into the bootstrap folder (`00_CreateDB`, any case), the version
 * folders (names `Int32.TryParse` accepts) and ignored folders. A folder whose
 * key `lower(project + "#" + name)` was already seen in this pass is skipped.
 * The enumeration of the directory is an input sequence.
 */
module DBFolders {
  import opened Text

  const CreateDBFolderName: string := "00_createdb"

  function GetLastDirectoryName(directoryName: string): (r: string)
    ensures HasNoSeparator(r) && EndsWith(directoryName, r)
    ensures |r| < |directoryName| ==> IsSeparator(directoryName[|directoryName| - |r| - 1])
  {
    GetFileName(directoryName)
  }

  /**
   * A folder name is a version name when it reads as a 32-bit integer. Such a
   * name is not empty, has no upper-case letter, and so never matches the
   * bootstrap folder name in any case.
   */
  function IsVersionFolder(name: string): (r: bool)
    ensures r ==> name != ""
    ensures r ==> Lower(name) == name
    ensures r ==> Lower(name) != CreateDBFolderName
  {
    if ParseInt32(name).Some? then
      NumberIsNotCreateDB(name);
      true
    else false
  }

  predicate IsCreateDBFolder(directory: string) {
    Lower(GetLastDirectoryName(directory)) == CreateDBFolderName
  }

  /** The de-duplication key: project name, `#` and folder name, lower-cased. */
  function Key(projectName: string, directory: string): string {
    Lower(projectName + "#" + GetLastDirectoryName(directory))
  }

  /** The one key every bootstrap-named folder shares. */
  function CreateDBKey(projectName: string): string {
    Lower(projectName) + "#" + CreateDBFolderName
  }

  /** The three pieces of state the discovery pass builds. */
  datatype Discovery = Discovery(createDBFolder: string, scriptFolders: seq<string>, seen: set<string>)

  const Empty: Discovery := Discovery("", [], {})

  /** One iteration of the `foreach` over the directories. */
  function Step(projectName: string, d: Discovery, directory: string): Discovery {
    var key := Key(projectName, directory);
    if IsCreateDBFolder(directory) then
      if key !in d.seen then d.(seen := d.seen + {key}, createDBFolder := directory) else d
    else if IsVersionFolder(GetLastDirectoryName(directory)) then
      if key !in d.seen then d.(seen := d.seen + {key}, scriptFolders := d.scriptFolders + [directory]) else d
    else d
  }

  /** The state after visiting `directories` in order, starting from `start`. */
  function Run(projectName: string, start: Discovery, directories: seq<string>): Discovery
    decreases |directories|
  {
    if directories == [] then start
    else Step(projectName, Run(projectName, start, directories[..|directories| - 1]), directories[|directories| - 1])
  }

  function Walk(projectName: string, directories: seq<string>): Discovery {
    Run(projectName, Empty, directories)
  }

  class DBFolders {
    const projectName: string
    var createDBFolderToProcess: string
    var scriptFoldersToProcess: seq<string>
    var projectAndVersions: set<string>

    function State(): Discovery
      reads this
    {
      Discovery(createDBFolderToProcess, scriptFoldersToProcess, projectAndVersions)
    }

    /** Classifies `directories`, the enumeration of an existing scripts root. */
    constructor(projectName: string, directories: seq<string>)
      ensures this.projectName == projectName
      ensures State() == Walk(projectName, directories)
    {
      this.projectName := projectName;
      createDBFolderToProcess := "";
      scriptFoldersToProcess := [];
      projectAndVersions := {};
      new;
      ProcessProjectDirectory(directories);
    }

    method ProcessProjectDirectory(directories: seq<string>)
      modifies this
      ensures State() == Run(projectName, old(State()), directories)
    {
      for i := 0 to |directories|
        invariant State() == Run(projectName, old(State()), directories[..i])
      {
        ghost var expected := Step(projectName, State(), directories[i]);
        var versionDirectoryName := directories[i];
        var version := GetLastDirectoryName(versionDirectoryName);
        var projectAndVersion := Lower(projectName + "#" + version);
        if Lower(version) == CreateDBFolderName {
          if projectAndVersion !in projectAndVersions {
            projectAndVersions := projectAndVersions + {projectAndVersion};
            createDBFolderToProcess := versionDirectoryName;
          }
        } else if IsVersionFolder(version) {
          if projectAndVersion !in projectAndVersions {
            projectAndVersions := projectAndVersions + {projectAndVersion};
            scriptFoldersToProcess := scriptFoldersToProcess + [versionDirectoryName];
          }
        }
        assert State() == expected;
        assert directories[..i + 1][..i] == directories[..i];
      }
      assert directories[..|directories|] == directories;
    }
  }

  /**
   * The `DBFolders` constructor: a missing scripts root throws before any
   * folder is classified (here: no object), otherwise the directories are
   * classified.
   */
  method Open(projectName: string, pathExists: bool, directories: seq<string>) returns (folders: DBFolders?)
    ensures folders == null <==> !pathExists
    ensures folders != null ==> fresh(folders) && folders.State() == Walk(projectName, directories)
  {
    if !pathExists {
      return null;
    }
    folders := new DBFolders(projectName, directories);
  }

  // ---- properties of the discovery pass ----

  function KeysOf(projectName: string, folders: seq<string>): set<string> {
    set f | f in folders :: Key(projectName, f)
  }

  /** What every reachable discovery state satisfies. */
  ghost predicate Consistent(projectName: string, d: Discovery) {
    && (d.createDBFolder != "" ==> IsCreateDBFolder(d.createDBFolder))
    && (forall f :: f in d.scriptFolders ==> IsVersionFolder(GetLastDirectoryName(f)) && !IsCreateDBFolder(f))
    && (forall i, j :: 0 <= i < j < |d.scriptFolders| ==>
          Key(projectName, d.scriptFolders[i]) != Key(projectName, d.scriptFolders[j]))
    && d.seen == KeysOf(projectName, d.scriptFolders) + (if d.createDBFolder != "" then {CreateDBKey(projectName)} else {})
  }

  lemma KeyOfCreateDB(projectName: string, directory: string)
    requires IsCreateDBFolder(directory)
    ensures Key(projectName, directory) == CreateDBKey(projectName)
  {
    var name := GetLastDirectoryName(directory);
    LowerConcat(projectName + "#", name);
    LowerConcat(projectName, "#");
  }

  /** The bootstrap name is not a number, so a version folder never has the bootstrap key. */
  lemma KeyOfVersion(projectName: string, directory: string)
    requires IsVersionFolder(GetLastDirectoryName(directory))
    ensures !IsCreateDBFolder(directory)
    ensures Key(projectName, directory) != CreateDBKey(projectName)
  {
    var name := GetLastDirectoryName(directory);
    NumberIsNotCreateDB(name);
    LowerConcat(projectName + "#", name);
    LowerConcat(projectName, "#");
    var lp := Lower(projectName) + "#";
    assert Lower("#") == "#";
    assert Key(projectName, directory) == lp + Lower(name);
    assert (lp + Lower(name))[|lp|..] == Lower(name);
    assert (lp + CreateDBFolderName)[|lp|..] == CreateDBFolderName;
  }

  lemma NumberIsNotCreateDB(name: string)
    requires ParseInt32(name).Some?
    ensures Lower(name) == name
    ensures Lower(name) != CreateDBFolderName
  {
    ParsedIsLowerCase(name);
    if |name| == |CreateDBFolderName| {
      var digits := if name[0] == '-' || name[0] == '+' then name[1..] else name;
      assert IsDigit(digits[if name[0] == '-' || name[0] == '+' then 1 else 2]);
      assert Lower(name)[2] != CreateDBFolderName[2];
    }
  }

  /** Folders whose last names agree up to case share a key. */
  lemma KeyDeterminedByName(projectName: string, a: string, b: string)
    requires Lower(GetLastDirectoryName(a)) == Lower(GetLastDirectoryName(b))
    ensures Key(projectName, a) == Key(projectName, b)
  {
    LowerConcat(projectName + "#", GetLastDirectoryName(a));
    LowerConcat(projectName + "#", GetLastDirectoryName(b));
  }

  lemma KeysOfAppend(projectName: string, folders: seq<string>, f: string)
    ensures KeysOf(projectName, folders + [f]) == KeysOf(projectName, folders) + {Key(projectName, f)}
  {
  }

  /** The bootstrap key is absent while no bootstrap folder has been chosen. */
  lemma CreateDBKeyUnseen(projectName: string, d: Discovery)
    requires Consistent(projectName, d) && d.createDBFolder == ""
    ensures CreateDBKey(projectName) !in d.seen
  {
    forall f | f in d.scriptFolders ensures Key(projectName, f) != CreateDBKey(projectName) {
      KeyOfVersion(projectName, f);
    }
  }

  lemma ConsistentStepCreateDB(projectName: string, d: Discovery, directory: string)
    requires Consistent(projectName, d) && IsCreateDBFolder(directory)
    ensures Consistent(projectName, Step(projectName, d, directory))
  {
    KeyOfCreateDB(projectName, directory);
    if d.createDBFolder != "" {
      assert Key(projectName, directory) in d.seen;
      assert Step(projectName, d, directory) == d;
    }
  }

  lemma ConsistentStepVersion(projectName: string, d: Discovery, directory: string)
    requires Consistent(projectName, d) && IsVersionFolder(GetLastDirectoryName(directory))
    requires Key(projectName, directory) !in d.seen
    ensures Consistent(projectName, Step(projectName, d, directory))
  {
    var key := Key(projectName, directory);
    KeyOfVersion(projectName, directory);
    var d' := d.(seen := d.seen + {key}, scriptFolders := d.scriptFolders + [directory]);
    assert Step(projectName, d, directory) == d';
    KeysOfAppend(projectName, d.scriptFolders, directory);
    forall i, j | 0 <= i < j < |d'.scriptFolders|
      ensures Key(projectName, d'.scriptFolders[i]) != Key(projectName, d'.scriptFolders[j])
    {
      if j == |d.scriptFolders| {
        assert d'.scriptFolders[i] in d.scriptFolders;
      }
    }
  }

  lemma ConsistentStep(projectName: string, d: Discovery, directory: string)
    requires Consistent(projectName, d)
    ensures Consistent(projectName, Step(projectName, d, directory))
  {
    if IsCreateDBFolder(directory) {
      ConsistentStepCreateDB(projectName, d, directory);
    } else if IsVersionFolder(GetLastDirectoryName(directory)) && Key(projectName, directory) !in d.seen {
      ConsistentStepVersion(projectName, d, directory);
    }
  }

  lemma {:induction false} RunConsistent(projectName: string, start: Discovery, directories: seq<string>)
    requires Consistent(projectName, start)
    ensures Consistent(projectName, Run(projectName, start, directories))
    decreases |directories|
  {
    if directories != [] {
      RunConsistent(projectName, start, directories[..|directories| - 1]);
      ConsistentStep(projectName, Run(projectName, start, directories[..|directories| - 1]), directories[|directories| - 1]);
    }
  }

  /**
   * The result is a partition: the bootstrap folder (when set) has the
   * bootstrap name, every script folder has a name `TryParse` accepts, and the
   * bootstrap folder is never among the script folders.
   */
  lemma Partition(projectName: string, directories: seq<string>)
    ensures var d := Walk(projectName, directories);
      && (d.createDBFolder != "" ==> IsCreateDBFolder(d.createDBFolder) && d.createDBFolder !in d.scriptFolders)
      && (forall f :: f in d.scriptFolders ==> IsVersionFolder(GetLastDirectoryName(f)))
  {
    RunConsistent(projectName, Empty, directories);
  }

  /** No two script folders share a last name, ignoring case. */
  lemma DistinctNames(projectName: string, directories: seq<string>)
    ensures var folders := Walk(projectName, directories).scriptFolders;
      forall i, j :: 0 <= i < j < |folders| ==>
        Lower(GetLastDirectoryName(folders[i])) != Lower(GetLastDirectoryName(folders[j]))
  {
    RunConsistent(projectName, Empty, directories);
    var folders := Walk(projectName, directories).scriptFolders;
    forall i, j | 0 <= i < j < |folders|
      ensures Lower(GetLastDirectoryName(folders[i])) != Lower(GetLastDirectoryName(folders[j]))
    {
      if Lower(GetLastDirectoryName(folders[i])) == Lower(GetLastDirectoryName(folders[j])) {
        KeyDeterminedByName(projectName, folders[i], folders[j]);
      }
    }
  }

  /** A directory whose key the loop records: a bootstrap or a version folder. */
  predicate Tracked(directory: string) {
    IsCreateDBFolder(directory) || IsVersionFolder(GetLastDirectoryName(directory))
  }

  /** One step keeps every key seen and adds the key of a bootstrap or version folder. */
  lemma StepSeen(projectName: string, d: Discovery, directory: string)
    ensures d.seen <= Step(projectName, d, directory).seen
    ensures Tracked(directory) ==> Key(projectName, directory) in Step(projectName, d, directory).seen
  {
  }

  /** Every folder visited leaves its key behind, if it is a bootstrap or a version folder. */
  lemma {:induction false} VisitedKeysSeen(projectName: string, start: Discovery, directories: seq<string>)
    ensures start.seen <= Run(projectName, start, directories).seen
    ensures forall directory :: directory in directories && Tracked(directory) ==>
      Key(projectName, directory) in Run(projectName, start, directories).seen
    decreases |directories|
  {
    if directories != [] {
      var init := directories[..|directories| - 1];
      var last := directories[|directories| - 1];
      VisitedKeysSeen(projectName, start, init);
      var prev := Run(projectName, start, init);
      var d := Run(projectName, start, directories);
      assert d == Step(projectName, prev, last);
      StepSeen(projectName, prev, last);
      forall directory | directory in directories && Tracked(directory)
        ensures Key(projectName, directory) in d.seen
      {
        if directory !in init {
          assert directory == last;
        }
      }
    }
  }

  /** Every version-named folder is represented: its key is the key of some script folder. */
  lemma Complete(projectName: string, directories: seq<string>)
    ensures var d := Walk(projectName, directories);
      forall i :: 0 <= i < |directories| && IsVersionFolder(GetLastDirectoryName(directories[i])) ==>
        Key(projectName, directories[i]) in KeysOf(projectName, d.scriptFolders)
  {
    RunConsistent(projectName, Empty, directories);
    VisitedKeysSeen(projectName, Empty, directories);
    forall i | 0 <= i < |directories| && IsVersionFolder(GetLastDirectoryName(directories[i])) {
      KeyOfVersion(projectName, directories[i]);
    }
  }

  /** A folder with neither a bootstrap nor a numeric name goes into neither output. */
  lemma IgnoredFolders(projectName: string, directories: seq<string>, directory: string)
    requires directory != ""
    requires !IsCreateDBFolder(directory) && !IsVersionFolder(GetLastDirectoryName(directory))
    ensures var d := Walk(projectName, directories);
      directory != d.createDBFolder && directory !in d.scriptFolders
  {
    WalkShape(projectName, directories);
  }

  /** A name `Int32.TryParse` rejects is not a version folder name. */
  lemma RejectedIsNoVersion(name: string)
    requires ParseInt32(name).None?
    ensures !IsVersionFolder(name)
  {
  }

  /** `docs` and `1a` are not version names, and a folder named so is kept nowhere. */
  lemma DocsIgnored(projectName: string, directories: seq<string>, parent: string, sep: char)
    requires IsSeparator(sep)
    ensures !IsVersionFolder("docs") && !IsVersionFolder("1a")
    ensures var d := Walk(projectName, directories);
      parent + [sep] + "docs" != d.createDBFolder && parent + [sep] + "docs" !in d.scriptFolders
  {
    ParseRejectsNonDigit("docs", 0);
    ParseRejectsNonDigit("1a", 1);
    var docs := parent + [sep] + "docs";
    FileNameOfJoin(parent, sep, "docs");
    assert |Lower("docs")| != |CreateDBFolderName|;
    IgnoredFolders(projectName, directories, docs);
  }

  /** The bootstrap folder found, if any, is named so; every script folder has a version name. */
  lemma WalkShape(projectName: string, directories: seq<string>)
    ensures var d := Walk(projectName, directories);
      && (d.createDBFolder != "" ==> IsCreateDBFolder(d.createDBFolder))
      && forall f :: f in d.scriptFolders ==> IsVersionFolder(GetLastDirectoryName(f))
  {
    RunConsistent(projectName, Empty, directories);
  }

  /** `xs` keeps some of the elements of `ys`, in the same order. */
  ghost predicate IsSubsequence(xs: seq<string>, ys: seq<string>)
    decreases |ys|
  {
    if xs == [] then true
    else if ys == [] then false
    else
      || (xs[|xs| - 1] == ys[|ys| - 1] && IsSubsequence(xs[..|xs| - 1], ys[..|ys| - 1]))
      || IsSubsequence(xs, ys[..|ys| - 1])
  }

  lemma {:induction false} SubsequenceSkip(xs: seq<string>, ys: seq<string>, y: string)
    requires IsSubsequence(xs, ys)
    ensures IsSubsequence(xs, ys + [y])
  {
    if xs != [] {
      assert (ys + [y])[..|ys + [y]| - 1] == ys;
    }
  }

  lemma SubsequenceTake(xs: seq<string>, ys: seq<string>, y: string)
    requires IsSubsequence(xs, ys)
    ensures IsSubsequence(xs + [y], ys + [y])
  {
    assert (xs + [y])[..|xs|] == xs;
    assert (ys + [y])[..|ys|] == ys;
  }

  /** One step appends the visited directory to the script folders, or leaves them alone. */
  lemma StepAppendsAtMost(projectName: string, d: Discovery, directory: string)
    ensures var after := Step(projectName, d, directory).scriptFolders;
      after == d.scriptFolders || after == d.scriptFolders + [directory]
  {
  }

  /** Visiting one more directory appends it to the script folders, or leaves them alone. */
  lemma WalkAppendsAtMost(projectName: string, init: seq<string>, last: string)
    ensures var after := Walk(projectName, init + [last]).scriptFolders;
      var before := Walk(projectName, init).scriptFolders;
      after == before || after == before + [last]
  {
    assert (init + [last])[..|init|] == init;
    assert Walk(projectName, init + [last]) == Step(projectName, Walk(projectName, init), last);
    StepAppendsAtMost(projectName, Walk(projectName, init), last);
  }

  lemma {:induction false} SubsequenceEmpty(ys: seq<string>)
    ensures IsSubsequence([], ys)
  {
  }

  /**
   * Script folders come out in the order of the directory listing, a
   * subsequence of it, whatever order the listing has.
   */
  lemma {:induction false} EnumerationOrder(projectName: string, directories: seq<string>)
    ensures IsSubsequence(Walk(projectName, directories).scriptFolders, directories)
    decreases |directories|
  {
    if directories != [] {
      var init := directories[..|directories| - 1];
      var last := directories[|directories| - 1];
      EnumerationOrder(projectName, init);
      var before := Walk(projectName, init).scriptFolders;
      assert directories == init + [last];
      WalkAppendsAtMost(projectName, init, last);
      if Walk(projectName, init + [last]).scriptFolders == before {
        SubsequenceSkip(before, init, last);
      } else {
        SubsequenceTake(before, init, last);
      }
    } else {
      SubsequenceEmpty(directories);
    }
  }

  /** Each directory is visited once: there are at most as many script folders as directories. */
  lemma {:induction false} FolderCount(projectName: string, directories: seq<string>)
    ensures |Walk(projectName, directories).scriptFolders| <= |directories|
    decreases |directories|
  {
    if directories != [] {
      var init := directories[..|directories| - 1];
      FolderCount(projectName, init);
      StepAppendsAtMost(projectName, Walk(projectName, init), directories[|directories| - 1]);
    }
  }

  /** Visiting two directories is two steps from the empty state. */
  lemma WalkOfTwo(projectName: string, a: string, b: string)
    ensures Walk(projectName, [a, b]) == Step(projectName, Step(projectName, Empty, a), b)
  {
    assert [a, b][..1] == [a];
    assert [a][..0] == [];
    assert Run(projectName, Empty, []) == Empty;
    assert Run(projectName, Empty, [a]) == Step(projectName, Empty, a);
    assert Run(projectName, Empty, [a, b]) == Step(projectName, Run(projectName, Empty, [a]), b);
  }

  /** Two version folders with different keys are both kept, in the order visited. */
  lemma TwoVersionFoldersKept(projectName: string, a: string, b: string)
    requires IsVersionFolder(GetLastDirectoryName(a)) && !IsCreateDBFolder(a)
    requires IsVersionFolder(GetLastDirectoryName(b)) && !IsCreateDBFolder(b)
    requires Key(projectName, a) != Key(projectName, b)
    ensures Walk(projectName, [a, b]).scriptFolders == [a, b]
  {
    WalkOfTwo(projectName, a, b);
    assert Step(projectName, Empty, a).seen == {Key(projectName, a)};
  }

  /** The key of a plain folder name is as long as project name, `#` and folder name together. */
  lemma KeyLength(projectName: string, name: string)
    requires HasNoSeparator(name)
    ensures |Key(projectName, name)| == |projectName| + 1 + |name|
  {
    FileNameOfName(name);
  }

  /** Two plain version names of different lengths are both kept, in the order visited. */
  lemma PlainVersionNamesKept(projectName: string, a: string, b: string)
    requires HasNoSeparator(a) && HasNoSeparator(b) && |a| != |b|
    requires IsVersionFolder(a) && IsVersionFolder(b)
    ensures Walk(projectName, [a, b]).scriptFolders == [a, b]
  {
    FileNameOfName(a);
    FileNameOfName(b);
    KeyLength(projectName, a);
    KeyLength(projectName, b);
    TwoVersionFoldersKept(projectName, a, b);
  }

  /** `1` and `01` are both version folder names, and neither is the bootstrap folder. */
  lemma OneAndZeroOneAreVersions(one: string, zeroOne: string)
    requires one == "1" && zeroOne == "01"
    ensures IsVersionFolder(one) && IsVersionFolder(zeroOne)
    ensures HasNoSeparator(one) && HasNoSeparator(zeroOne) && |one| != |zeroOne|
  {
    DecimalRoundTrip(1);
    assert Decimal(1) == one;
    LeadingZeroDigits(one);
    assert "0" + one == zeroOne;
    FileNameOfName(one);
    FileNameOfName(zeroOne);
  }

  /** `1` and `01` name the same version but have different keys, so both folders are kept. */
  lemma OneAndZeroOneKept(projectName: string, one: string, zeroOne: string)
    requires one == "1" && zeroOne == "01"
    ensures Walk(projectName, [one, zeroOne]).scriptFolders == [one, zeroOne]
  {
    OneAndZeroOneAreVersions(one, zeroOne);
    PlainVersionNamesKept(projectName, one, zeroOne);
  }

  /** With no bootstrap-named directory the bootstrap folder stays empty. */
  lemma {:induction false} NoBootstrap(projectName: string, directories: seq<string>)
    requires forall i :: 0 <= i < |directories| ==> !IsCreateDBFolder(directories[i])
    ensures Walk(projectName, directories).createDBFolder == ""
    decreases |directories|
  {
    if directories != [] {
      var init := directories[..|directories| - 1];
      assert forall i :: 0 <= i < |init| ==> init[i] == directories[i];
      NoBootstrap(projectName, init);
    }
  }

  /** Once set, the bootstrap folder is never replaced: later case variants share its key. */
  lemma {:induction false} BootstrapKept(projectName: string, start: Discovery, directories: seq<string>)
    requires Consistent(projectName, start) && start.createDBFolder != ""
    ensures Run(projectName, start, directories).createDBFolder == start.createDBFolder
    decreases |directories|
  {
    if directories != [] {
      var init := directories[..|directories| - 1];
      var last := directories[|directories| - 1];
      BootstrapKept(projectName, start, init);
      RunConsistent(projectName, start, init);
      if IsCreateDBFolder(last) {
        KeyOfCreateDB(projectName, last);
      }
    }
  }

  lemma RunAppend(projectName: string, start: Discovery, xs: seq<string>, ys: seq<string>)
    ensures Run(projectName, start, xs + ys) == Run(projectName, Run(projectName, start, xs), ys)
    decreases |ys|
  {
    if ys != [] {
      assert (xs + ys)[..|xs + ys| - 1] == xs + ys[..|ys| - 1];
      RunAppend(projectName, start, xs, ys[..|ys| - 1]);
    } else {
      assert xs + ys == xs;
    }
  }

  /**
   * The bootstrap folder is the first directory whose last name is
   * `00_createdb` in any case.
   */
  lemma FirstBootstrapWins(projectName: string, directories: seq<string>, k: nat)
    requires k < |directories| && IsCreateDBFolder(directories[k])
    requires forall i :: 0 <= i < k ==> !IsCreateDBFolder(directories[i])
    ensures Walk(projectName, directories).createDBFolder == directories[k]
  {
    var before := directories[..k];
    var upTo := directories[..k + 1];
    forall i | 0 <= i < |before| ensures !IsCreateDBFolder(before[i]) {
      assert before[i] == directories[i];
    }
    assert upTo == before + [directories[k]];
    BootstrapChosen(projectName, before, directories[k]);
    var d1 := Walk(projectName, upTo);
    RunConsistent(projectName, Empty, upTo);
    var rest := directories[k + 1..];
    assert upTo + rest == directories;
    BootstrapKept(projectName, d1, rest);
    RunAppend(projectName, Empty, upTo, rest);
  }

  /** The first bootstrap-named directory is taken. */
  lemma BootstrapChosen(projectName: string, before: seq<string>, directory: string)
    requires forall i :: 0 <= i < |before| ==> !IsCreateDBFolder(before[i])
    requires IsCreateDBFolder(directory)
    ensures Walk(projectName, before + [directory]).createDBFolder == directory
  {
    NoBootstrap(projectName, before);
    RunConsistent(projectName, Empty, before);
    var d := Walk(projectName, before);
    CreateDBKeyUnseen(projectName, d);
    KeyOfCreateDB(projectName, directory);
    assert (before + [directory])[..|before|] == before;
  }
}

=== FILE: script_name_sorter.dfy ===
/**
 * The comparer used to order the scripts of one folder: the text of the file
 * name before its first underscore is read as an integer; when both names have
 * such a prefix they compare by it, otherwise (no underscore, or a prefix that
 * is not an integer) they compare as strings. Directory components are
 * stripped first. The sort the runner applies with it is modelled here too.
 */
module ScriptNameSorter {
  import opened Text

  /** The text before the first underscore read as a 32-bit integer; None when there is no underscore or the read fails. */
  function NumericPrefix(name: string): (r: Option<int>)
    ensures r.Some? ==> '_' in name
  {
    var i := IndexOf(name, '_');
    if i < 0 then None else ParseInt32(name[..i])
  }

  predicate IsNumbered(path: string) {
    NumericPrefix(GetFileName(path)).Some?
  }

  /** `ScriptNameSorter.Compare`. */
  function Compare(scriptName1: string, scriptName2: string): (r: int)
    ensures -1 <= r <= 1
  {
    var name1 := GetFileName(scriptName1);
    var name2 := GetFileName(scriptName2);
    var prefix1 := NumericPrefix(name1);
    var prefix2 := NumericPrefix(name2);
    if prefix1.Some? && prefix2.Some? then IntCompare(prefix1.value, prefix2.value)
    else OrdinalCompare(name1, name2)
  }

  /** The prefix of `<digits>_<rest>` is the digits' value. */
  lemma PrefixOf(digits: string, rest: string, n: int)
    requires '_' !in digits && ParseInt32(digits) == Some(n)
    ensures NumericPrefix(digits + "_" + rest) == Some(n)
  {
    var name := digits + "_" + rest;
    assert name[..|digits|] == digits;
    IndexOfIs(name, '_', |digits|);
  }

  /** A plain `<number>_<rest>` name is its own file name and has that number as prefix. */
  lemma NumberedName(digits: string, rest: string, n: int)
    requires '_' !in digits && HasNoSeparator(digits) && HasNoSeparator(rest)
    requires ParseInt32(digits) == Some(n)
    ensures GetFileName(digits + "_" + rest) == digits + "_" + rest
    ensures NumericPrefix(digits + "_" + rest) == Some(n)
  {
    var name := digits + "_" + rest;
    assert forall i :: 0 <= i < |name| ==>
      name[i] == if i < |digits| then digits[i] else if i == |digits| then '_' else rest[i - |digits| - 1];
    FileNameOfName(name);
    PrefixOf(digits, rest, n);
  }

  lemma DecimalHasNoUnderscore(n: nat)
    ensures '_' !in Decimal(n) && HasNoSeparator(Decimal(n))
  {
    var d := Decimal(n);
    assert forall i :: 0 <= i < |d| ==> IsDigit(d[i]);
  }

  /**
   * Names `<x>_<a>` and `<y>_<b>` order by the numbers x and y: `1_x`, `2_x`,
   * `10_x` come out as 1, 2, 10, not as the strings would.
   */
  lemma NumberedOrder(x: nat, a: string, y: nat, b: string)
    requires x <= Int32Max && y <= Int32Max
    requires HasNoSeparator(a) && HasNoSeparator(b)
    ensures Compare(Decimal(x) + "_" + a, Decimal(y) + "_" + b) == IntCompare(x, y)
  {
    DecimalHasNoUnderscore(x);
    DecimalHasNoUnderscore(y);
    DecimalRoundTrip(x);
    DecimalRoundTrip(y);
    NumberedName(Decimal(x), a, x);
    NumberedName(Decimal(y), b, y);
  }

  lemma PaddedDecimal(x: nat)
    requires x <= Int32Max
    ensures ParseInt32("0" + Decimal(x)) == Some(x)
    ensures '_' !in "0" + Decimal(x) && HasNoSeparator("0" + Decimal(x))
  {
    var padded := "0" + Decimal(x);
    DecimalRoundTrip(x);
    LeadingZeroDigits(Decimal(x));
    assert forall i :: 0 <= i < |padded| ==> IsDigit(padded[i]);
  }

  /**
   * Equal numeric prefixes compare as 0 whatever follows them: `01_a.sql` and
   * `1_b.sql` are tied and the comparer does not break the tie.
   */
  lemma LeadingZeroTie(x: nat, a: string, b: string)
    requires x <= Int32Max
    requires HasNoSeparator(a) && HasNoSeparator(b)
    ensures Compare("0" + Decimal(x) + "_" + a, Decimal(x) + "_" + b) == 0
  {
    PaddedDecimal(x);
    DecimalHasNoUnderscore(x);
    DecimalRoundTrip(x);
    NumberedName("0" + Decimal(x), a, x);
    NumberedName(Decimal(x), b, x);
  }

  /**
   * A name without a numeric prefix (no underscore, or text before it that is
   * not an integer) sends the comparer to the string order.
   */
  lemma NoUnderscoreFallsBack(scriptName1: string, scriptName2: string)
    requires !IsNumbered(scriptName1) || !IsNumbered(scriptName2)
    ensures Compare(scriptName1, scriptName2) == OrdinalCompare(GetFileName(scriptName1), GetFileName(scriptName2))
  {
  }

  /** Directory components are stripped before comparing. */
  lemma DirectoriesStripped(dir1: string, sep1: char, name1: string, dir2: string, sep2: char, name2: string)
    requires IsSeparator(sep1) && IsSeparator(sep2) && HasNoSeparator(name1) && HasNoSeparator(name2)
    ensures Compare(dir1 + [sep1] + name1, dir2 + [sep2] + name2) == Compare(name1, name2)
  {
    FileNameOfJoin(dir1, sep1, name1);
    FileNameOfJoin(dir2, sep2, name2);
    FileNameOfName(name1);
    FileNameOfName(name2);
  }

  lemma Reflexive(a: string)
    ensures Compare(a, a) == 0
  {
    OrdinalCompareZero(GetFileName(a), GetFileName(a));
  }

  lemma Antisymmetric(a: string, b: string)
    ensures Compare(a, b) == -Compare(b, a)
  {
    OrdinalCompareAntisymmetric(GetFileName(a), GetFileName(b));
  }

  /** Among numbered names the comparer is a total preorder. */
  lemma TransitiveAmongNumbered(a: string, b: string, c: string)
    requires IsNumbered(a) && IsNumbered(b) && IsNumbered(c)
    requires Compare(a, b) <= 0 && Compare(b, c) <= 0
    ensures Compare(a, c) <= 0
  {
  }

  /**
   * Mixing numbered and unnumbered names breaks transitivity:
   * `2_b` < `10_a` < `1a` < `2_b`.
   */
  lemma MixedNamesCycle(two: string, ten: string, one: string)
    requires two == "2_b" && ten == "10_a" && one == "1a"
    ensures Compare(two, ten) < 0 && Compare(ten, one) < 0 && Compare(one, two) < 0
  {
    CycleNumbered(two, ten);
    CycleUnnumbered(ten, one);
    CycleUnnumbered(one, two);
  }

  lemma CycleNumbered(two: string, ten: string)
    requires two == "2_b" && ten == "10_a"
    ensures Compare(two, ten) < 0
  {
    assert Decimal(2) == "2" && Decimal(10) == "10";
    assert two == Decimal(2) + "_" + "b" && ten == Decimal(10) + "_" + "a";
    NumberedOrder(2, "b", 10, "a");
  }

  lemma CycleUnnumbered(x: string, y: string)
    requires (x == "10_a" && y == "1a") || (x == "1a" && y == "2_b")
    ensures Compare(x, y) < 0
  {
    if x == "10_a" {
      assert HasNoSeparator(x) && HasNoSeparator(y) && '_' !in y;
      BareNamesFallBack(x, y);
      TenBeforeOne(x, y);
    } else {
      assert HasNoSeparator(x) && HasNoSeparator(y) && '_' !in x;
      BareNamesFallBack(x, y);
      OneBeforeTwo(x, y);
    }
  }

  lemma BareNamesFallBack(x: string, y: string)
    requires HasNoSeparator(x) && HasNoSeparator(y) && ('_' !in x || '_' !in y)
    ensures Compare(x, y) == OrdinalCompare(x, y)
  {
    FileNameOfName(x);
    FileNameOfName(y);
    NoUnderscoreFallsBack(x, y);
  }

  lemma TenBeforeOne(x: string, y: string)
    requires x == "10_a" && y == "1a"
    ensures OrdinalCompare(x, y) == -1
  {
    assert x[1..] == "0_a" && y[1..] == "a";
  }

  lemma OneBeforeTwo(x: string, y: string)
    requires x == "1a" && y == "2_b"
    ensures OrdinalCompare(x, y) == -1
  {
  }

  /** Every pair compares in opposite directions when swapped. */
  ghost predicate IsAntisymmetric(cmp: (string, string) -> int) {
    forall a, b :: cmp(a, b) == -cmp(b, a)
  }

  lemma CompareIsAntisymmetric()
    ensures IsAntisymmetric(Compare)
  {
    forall a, b ensures Compare(a, b) == -Compare(b, a) {
      Antisymmetric(a, b);
    }
  }
}

/**
 * `List<string>.Sort(IComparer<string>)`, the library sort the runner applies
 * to each folder's script list, taken as a stable insertion sort over any
 * comparer.
 */
module ListSort {

  /** Insert `x` before the first element it does not compare above. */
  function Insert(x: string, s: seq<string>, cmp: (string, string) -> int): (r: seq<string>)
    ensures multiset(r) == multiset(s) + multiset{x}
    ensures |r| == |s| + 1
  {
    if s == [] then [x]
    else if cmp(x, s[0]) <= 0 then [x] + s
    else
      assert s == [s[0]] + s[1..];
      [s[0]] + Insert(x, s[1..], cmp)
  }

  function Sort(s: seq<string>, cmp: (string, string) -> int): (r: seq<string>)
    ensures multiset(r) == multiset(s)
    ensures |r| == |s|
  {
    if s == [] then []
    else
      assert s == [s[0]] + s[1..];
      Insert(s[0], Sort(s[1..], cmp), cmp)
  }

  /** Neighbours are in comparer order: the guarantee that survives a non-transitive comparer. */
  ghost predicate NeighboursOrdered(s: seq<string>, cmp: (string, string) -> int) {
    forall i :: 0 <= i < |s| - 1 ==> cmp(s[i], s[i + 1]) <= 0
  }

  ghost predicate Ordered(s: seq<string>, cmp: (string, string) -> int) {
    forall i, j :: 0 <= i < j < |s| ==> cmp(s[i], s[j]) <= 0
  }

  lemma {:induction false} InsertKeepsNeighboursOrdered(x: string, s: seq<string>, cmp: (string, string) -> int)
    requires forall a, b :: cmp(a, b) == -cmp(b, a)
    requires NeighboursOrdered(s, cmp)
    ensures NeighboursOrdered(Insert(x, s, cmp), cmp)
    ensures s != [] ==> Insert(x, s, cmp)[0] == x || Insert(x, s, cmp)[0] == s[0]
    decreases |s|
  {
    if s != [] && cmp(x, s[0]) > 0 {
      assert cmp(s[0], x) < 0;
      InsertKeepsNeighboursOrdered(x, s[1..], cmp);
      var r := Insert(x, s, cmp);
      assert r[1..] == Insert(x, s[1..], cmp);
      if |s| > 1 {
        assert r[1] == x || r[1] == s[1];
      }
    }
  }

  /** With an antisymmetric comparer the sorted sequence has its neighbours in order. */
  lemma {:induction false} SortOrdersNeighbours(s: seq<string>, cmp: (string, string) -> int)
    requires forall a, b :: cmp(a, b) == -cmp(b, a)
    ensures NeighboursOrdered(Sort(s, cmp), cmp)
  {
    if s != [] {
      SortOrdersNeighbours(s[1..], cmp);
      InsertKeepsNeighboursOrdered(s[0], Sort(s[1..], cmp), cmp);
    }
  }

  /** Where the comparer is transitive on the elements, neighbour order is full order. */
  lemma {:induction false} NeighboursOrderedIsOrdered(s: seq<string>, cmp: (string, string) -> int)
    requires forall i, j, k ::
      (0 <= i < |s| && 0 <= j < |s| && 0 <= k < |s| && cmp(s[i], s[j]) <= 0 && cmp(s[j], s[k]) <= 0)
      ==> cmp(s[i], s[k]) <= 0
    requires NeighboursOrdered(s, cmp)
    ensures Ordered(s, cmp)
    decreases |s|
  {
    if |s| > 1 {
      var t := s[1..];
      forall i, j, k | 0 <= i < |t| && 0 <= j < |t| && 0 <= k < |t| && cmp(t[i], t[j]) <= 0 && cmp(t[j], t[k]) <= 0
        ensures cmp(t[i], t[k]) <= 0
      {
        assert t[i] == s[i + 1] && t[j] == s[j + 1] && t[k] == s[k + 1];
      }
      assert NeighboursOrdered(t, cmp) by {
        forall i | 0 <= i < |t| - 1 ensures cmp(t[i], t[i + 1]) <= 0 {
          assert t[i] == s[i + 1] && t[i + 1] == s[i + 2];
        }
      }
      NeighboursOrderedIsOrdered(t, cmp);
      forall i, j | 0 <= i < j < |s| ensures cmp(s[i], s[j]) <= 0 {
        if i > 0 {
          assert s[i] == t[i - 1] && s[j] == t[j - 1];
        } else if j > 1 {
          assert cmp(s[1], s[j]) <= 0 by { assert s[1] == t[0] && s[j] == t[j - 1]; }
        }
      }
    }
  }
}

=== FILE: script_path_tools.dfy ===
/**
 * The script-file marker classifier of the migration runner: a script whose
 * file name has the form `<prefix>_SYS_<rest>` is run against the system
 * connection string (superuser credentials pointed at the always-present
 * default database) when it belongs to the bootstrap folder.
 */
module ScriptPathTools {
  import opened Text

  const SystemMarker: string := "SYS"

  /**
   * True when the file name (last path component) has the text "SYS" exactly
   * between its first and second underscore. Names starting with an underscore
   * and names with fewer than two underscores carry no marker.
   */
  function IsUsingSystemConnectionString(filePath: string): (r: bool)
    ensures r ==> !StartsWith(GetFileName(filePath), "_")
  {
    NameHasSystemMarker(GetFileName(filePath))
  }

  /** The part of the classifier that works on the bare file name. */
  function NameHasSystemMarker(fileName: string): (r: bool)
    ensures r ==> !StartsWith(fileName, "_")
  {
    var nameStart := IndexOf(fileName, '_') + 1;
    if nameStart < 0 || StartsWith(fileName, "_") then false
    else
      var nameLength := IndexOf(fileName[nameStart..], '_');
      if nameLength < 0 then false
      else fileName[nameStart..nameStart + nameLength] == SystemMarker
  }

  /**
   * Reference definition of the marker: some non-empty, underscore-free prefix
   * is followed by "_SYS_".
   */
  ghost predicate HasSystemMarker(name: string) {
    exists k :: 0 < k && k + 5 <= |name| && '_' !in name[..k] && name[k..k + 5] == "_SYS_"
  }

  /** The classifier answers true exactly for names carrying the marker. */
  lemma SystemMarkerExactly(filePath: string)
    ensures IsUsingSystemConnectionString(filePath) <==> HasSystemMarker(GetFileName(filePath))
  {
    var n := GetFileName(filePath);
    if NameHasSystemMarker(n) {
      MarkerFound(n);
    }
    if HasSystemMarker(n) {
      var k :| 0 < k && k + 5 <= |n| && '_' !in n[..k] && n[k..k + 5] == "_SYS_";
      MarkerRecognised(n, k);
    }
  }

  lemma MarkerFound(n: string)
    requires NameHasSystemMarker(n)
    ensures HasSystemMarker(n)
  {
    var first := IndexOf(n, '_');
    var rest := n[first + 1..];
    var len := IndexOf(rest, '_');
    assert rest[..len] == "SYS";
    assert rest[3] == '_';
    assert n[first..first + 5] == [n[first]] + rest[..3] + [rest[3]];
    assert n[..first] != [] by { assert n[0] != '_'; }
  }

  lemma MarkerRecognised(n: string, k: int)
    requires 0 < k && k + 5 <= |n| && '_' !in n[..k] && n[k..k + 5] == "_SYS_"
    ensures NameHasSystemMarker(n)
  {
    assert n[k] == n[k..k + 5][0];
    IndexOfIs(n, '_', k);
    var rest := n[k + 1..];
    assert rest[..4] == n[k + 1..k + 5] == n[k..k + 5][1..];
    assert rest[3] == '_' && rest[..3] == "SYS";
    IndexOfIs(rest, '_', 3);
    assert n[0] != '_' by { assert n[..k][0] == n[0]; }
  }

  /** `nameStart` is `IndexOf + 1` with `IndexOf >= -1`: the `nameStart < 0` test never fires. */
  lemma NameStartNeverNegative(filePath: string)
    ensures IndexOf(GetFileName(filePath), '_') + 1 >= 0
  {
  }

  /** Only the last path component is examined. */
  lemma DirectoriesIgnored(dir: string, sep: char, name: string)
    requires IsSeparator(sep) && HasNoSeparator(name)
    ensures IsUsingSystemConnectionString(dir + [sep] + name) == IsUsingSystemConnectionString(name)
  {
    FileNameOfJoin(dir, sep, name);
    FileNameOfName(name);
  }

  /** A name that starts with an underscore never selects the system connection. */
  lemma LeadingUnderscoreIgnored(filePath: string)
    requires StartsWith(GetFileName(filePath), "_")
    ensures !IsUsingSystemConnectionString(filePath)
  {
  }

  /** A name with fewer than two underscores never selects the system connection. */
  lemma NeedsTwoUnderscores(filePath: string)
    requires forall i, j :: 0 <= i < j < |GetFileName(filePath)| ==>
      !(GetFileName(filePath)[i] == '_' && GetFileName(filePath)[j] == '_')
    ensures !IsUsingSystemConnectionString(filePath)
  {
    var n := GetFileName(filePath);
    var first := IndexOf(n, '_');
    if first >= 0 {
      var rest := n[first + 1..];
      forall j | 0 <= j < |rest| ensures rest[j] != '_' {
        assert rest[j] == n[first + 1 + j];
      }
    }
  }

  /**
   * The classifier on a name whose first underscore is at `k` and whose second
   * follows `len` characters later.
   */
  lemma Classified(n: string, k: nat, len: nat)
    requires k + 1 + len < |n| && n[k] == '_' && '_' !in n[..k]
    requires n[k + 1 + len] == '_' && '_' !in n[k + 1..k + 1 + len]
    ensures NameHasSystemMarker(n) == (k > 0 && n[k + 1..k + 1 + len] == SystemMarker)
  {
    IndexOfIs(n, '_', k);
    var rest := n[k + 1..];
    assert rest[..len] == n[k + 1..k + 1 + len];
    IndexOfIs(rest, '_', len);
    if k > 0 {
      assert n[0] == n[..k][0];
    }
  }

  /**
   * For a name `<prefix>_<marker>_<rest>` the answer is exactly "the prefix is
   * non-empty and the marker is `SYS`": `0101_SYS_init.sql` selects the system
   * connection; `0101_sys_x.sql`, `0101_SYSX_x.sql`, `0101_MASTER_x.sql`,
   * `1__x.sql` and `_SYS_init.sql` do not.
   */
  lemma MarkerBetweenUnderscores(prefix: string, marker: string, rest: string)
    requires '_' !in prefix && '_' !in marker
    ensures NameHasSystemMarker(prefix + "_" + marker + "_" + rest) == (prefix != [] && marker == SystemMarker)
  {
    var n := prefix + "_" + marker + "_" + rest;
    var k := |prefix|;
    assert n[..k] == prefix;
    assert n[k + 1..k + 1 + |marker|] == marker;
    Classified(n, k, |marker|);
  }

  /** A name with a single underscore, as in `0101_init.sql`, carries no marker. */
  lemma SingleUnderscore(prefix: string, rest: string)
    requires '_' !in prefix && '_' !in rest
    ensures !NameHasSystemMarker(prefix + "_" + rest)
  {
    var n := prefix + "_" + rest;
    var k := |prefix|;
    assert n[..k] == prefix;
    IndexOfIs(n, '_', k);
    assert n[k + 1..] == rest;
  }

  lemma MarkerExamples()
    ensures NameHasSystemMarker("0101" + "_" + "SYS" + "_" + "init.sql")
    ensures !NameHasSystemMarker("0101" + "_" + "sys" + "_" + "x.sql")
    ensures !NameHasSystemMarker("0101" + "_" + "MASTER" + "_" + "x.sql")
    ensures !NameHasSystemMarker("0101" + "_" + "SYSX" + "_" + "x.sql")
    ensures !NameHasSystemMarker("1" + "_" + "" + "_" + "x.sql")
  {
    MarkerBetweenUnderscores("0101", "SYS", "init.sql");
    MarkerBetweenUnderscores("0101", "sys", "x.sql");
    MarkerBetweenUnderscores("0101", "MASTER", "x.sql");
    MarkerBetweenUnderscores("0101", "SYSX", "x.sql");
    MarkerBetweenUnderscores("1", "", "x.sql");
  }
}

=== FILE: text.dfy ===
/**
 * The .NET string and path primitives the migration runner relies on, stated
 * over `seq<char>`: `Path.GetFileName`, `String.IndexOf`, ASCII `ToLower`,
 * `Int32.Parse`/`TryParse` (optional sign followed by decimal digits, bounded
 * to 32 bits), `Int32.CompareTo` and an ordinal `String.CompareTo`.
 */
module Text {

  datatype Option<+T> = None | Some(value: T)

  const Int32Min: int := -0x8000_0000
  const Int32Max: int := 0x7FFF_FFFF

  predicate IsSeparator(c: char) {
    c == '/' || c == '\\'
  }

  predicate HasNoSeparator(s: string) {
    forall i :: 0 <= i < |s| ==> !IsSeparator(s[i])
  }

  /** The index of the last separator before `n`, or -1 when there is none. */
  function LastSeparator(p: string, n: nat): (r: int)
    requires n <= |p|
    ensures -1 <= r < n
    ensures r >= 0 ==> IsSeparator(p[r])
    ensures forall i :: r < i < n ==> !IsSeparator(p[i])
  {
    if n == 0 then -1
    else if IsSeparator(p[n - 1]) then n - 1
    else LastSeparator(p, n - 1)
  }

  /** `Path.GetFileName`: everything after the last separator. */
  function GetFileName(p: string): (r: string)
    ensures HasNoSeparator(r)
    ensures |r| <= |p| && r == p[|p| - |r|..]
    ensures |r| < |p| ==> IsSeparator(p[|p| - |r| - 1])
  {
    p[LastSeparator(p, |p|) + 1..]
  }

  /** A name without separators is its own file name. */
  lemma FileNameOfName(name: string)
    requires HasNoSeparator(name)
    ensures GetFileName(name) == name
  {
  }

  /** Directory components never reach the file name. */
  lemma FileNameOfJoin(dir: string, sep: char, name: string)
    requires IsSeparator(sep) && HasNoSeparator(name)
    ensures GetFileName(dir + [sep] + name) == name
  {
    var p := dir + [sep] + name;
    assert p[|dir|] == sep;
    assert forall i :: |dir| < i < |p| ==> p[i] == name[i - |dir| - 1];
  }

  lemma FileNameIdempotent(p: string)
    ensures GetFileName(GetFileName(p)) == GetFileName(p)
  {
    FileNameOfName(GetFileName(p));
  }

  /** The first index holding `c`, or -1, as `String.IndexOf` returns it. */
  function IndexOf(s: string, c: char): (r: int)
    ensures -1 <= r < |s|
    ensures r == -1 <==> c !in s
    ensures r >= 0 ==> s[r] == c && c !in s[..r]
  {
    if |s| == 0 then -1
    else if s[0] == c then 0
    else
      var k := IndexOf(s[1..], c);
      assert s[1..][..if k < 0 then 0 else k] == s[1..if k < 0 then 1 else k + 1];
      if k < 0 then -1 else k + 1
  }

  /** The first occurrence of `c` is at any index before which `c` does not occur. */
  lemma IndexOfIs(s: string, c: char, k: nat)
    requires k < |s| && s[k] == c && c !in s[..k]
    ensures IndexOf(s, c) == k
  {
  }

  predicate StartsWith(s: string, prefix: string) {
    |prefix| <= |s| && s[..|prefix|] == prefix
  }

  predicate EndsWith(s: string, suffix: string) {
    |suffix| <= |s| && s[|s| - |suffix|..] == suffix
  }

  function LowerChar(c: char): char {
    if 'A' <= c <= 'Z' then (c as int + 32) as char else c
  }

  /** Invariant-culture `ToLower` restricted to ASCII letters. */
  function Lower(s: string): (r: string)
    ensures |r| == |s|
    ensures forall i :: 0 <= i < |r| ==> !('A' <= r[i] <= 'Z')
    ensures forall i :: 0 <= i < |s| && !('A' <= s[i] <= 'Z') ==> r[i] == s[i]
    ensures forall i :: 0 <= i < |s| && 'A' <= s[i] <= 'Z' ==> r[i] as int == s[i] as int + 32
  {
    seq(|s|, i requires 0 <= i < |s| => LowerChar(s[i]))
  }

  /** Lower-casing twice is lower-casing once. */
  lemma LowerIdempotent(s: string)
    ensures Lower(Lower(s)) == Lower(s)
  {
  }

  lemma LowerConcat(a: string, b: string)
    ensures Lower(a + b) == Lower(a) + Lower(b)
  {
    assert forall i :: 0 <= i < |a + b| ==> Lower(a + b)[i] == (Lower(a) + Lower(b))[i];
  }

  predicate IsDigit(c: char) {
    '0' <= c <= '9'
  }

  predicate AllDigits(s: string) {
    forall i :: 0 <= i < |s| ==> IsDigit(s[i])
  }

  /** The value of a string of decimal digits, most significant first. */
  function DigitsValue(s: string): (n: nat)
    requires AllDigits(s)
    decreases |s|
  {
    if s == [] then 0
    else DigitsValue(s[..|s| - 1]) * 10 + (s[|s| - 1] as int - '0' as int)
  }

  /** `Int32.TryParse` / `Int32.Parse`: an optional sign, at least one digit, a 32-bit value. */
  function ParseInt32(s: string): (r: Option<int>)
    ensures r.Some? ==> Int32Min <= r.value <= Int32Max
    ensures r.Some? ==> |s| > 0
  {
    var negative := |s| > 0 && s[0] == '-';
    var digits := if |s| > 0 && (s[0] == '-' || s[0] == '+') then s[1..] else s;
    if |digits| == 0 || !AllDigits(digits) then None
    else
      var v: int := if negative then -(DigitsValue(digits) as int) else DigitsValue(digits);
      if Int32Min <= v <= Int32Max then Some(v) else None
  }

  /** Empty text and a lone sign are rejected. */
  lemma ParseRejectsNoDigits()
    ensures ParseInt32("") == None && ParseInt32("-") == None && ParseInt32("+") == None
  {
    assert "-"[1..] == [] && "+"[1..] == [];
  }

  /** Text with a character that is neither a digit nor a leading sign is rejected. */
  lemma ParseRejectsNonDigit(s: string, i: nat)
    requires i < |s| && !IsDigit(s[i])
    requires i > 0 || (s[i] != '-' && s[i] != '+')
    ensures ParseInt32(s) == None
  {
    if s[0] == '-' || s[0] == '+' {
      assert s[1..][i - 1] == s[i];
    }
  }

  /** A number above the 32-bit range is rejected, with or without a minus sign below it. */
  lemma ParseRejectsOutOfRange(n: nat)
    ensures n > Int32Max ==> ParseInt32(Decimal(n)) == None
    ensures n > -Int32Min ==> ParseInt32("-" + Decimal(n)) == None
  {
    DecimalValue(n);
    assert ("-" + Decimal(n))[1..] == Decimal(n);
  }

  /**
   * Any run of digits whose value leaves the 32-bit range is rejected, leading
   * zeros or not, unsigned, after a plus sign, or after a minus sign.
   */
  lemma ParseRejectsOutOfRangeDigits(d: string)
    requires AllDigits(d)
    ensures DigitsValue(d) > Int32Max ==> ParseInt32(d) == None && ParseInt32("+" + d) == None
    ensures DigitsValue(d) > -Int32Min ==> ParseInt32("-" + d) == None
  {
    assert ("+" + d)[1..] == d;
    assert ("-" + d)[1..] == d;
  }

  /** Accepted text consists of a sign and digits only, so lower-casing leaves it alone. */
  lemma ParsedIsLowerCase(s: string)
    requires ParseInt32(s).Some?
    ensures Lower(s) == s
  {
    var digits := if s[0] == '-' || s[0] == '+' then s[1..] else s;
    forall i | 0 <= i < |s| ensures Lower(s)[i] == s[i] {
      if i > 0 || (s[0] != '-' && s[0] != '+') {
        assert s[i] == digits[if s[0] == '-' || s[0] == '+' then i - 1 else i];
      }
    }
  }

  /** The decimal rendering of a natural number, without leading zeros. */
  function Decimal(n: nat): (r: string)
    ensures |r| > 0 && AllDigits(r)
  {
    if n < 10 then [('0' as int + n) as char]
    else Decimal(n / 10) + [('0' as int + n % 10) as char]
  }

  lemma {:induction false} DecimalValue(n: nat)
    ensures DigitsValue(Decimal(n)) == n
  {
    if n >= 10 {
      var d := Decimal(n);
      assert d[..|d| - 1] == Decimal(n / 10);
      DecimalValue(n / 10);
    }
  }

  /** Rendering then parsing is the identity on the non-negative 32-bit range. */
  lemma DecimalRoundTrip(n: nat)
    requires n <= Int32Max
    ensures ParseInt32(Decimal(n)) == Some(n)
  {
    DecimalValue(n);
  }

  /** A leading zero changes neither the value nor the parse. */
  lemma {:induction false} LeadingZeroDigits(d: string)
    requires AllDigits(d) && d != []
    ensures AllDigits("0" + d) && DigitsValue("0" + d) == DigitsValue(d)
    ensures ParseInt32("0" + d) == ParseInt32(d)
    decreases |d|
  {
    var init := d[..|d| - 1];
    assert ("0" + d)[..|"0" + d| - 1] == "0" + init;
    if init != [] {
      LeadingZeroDigits(init);
    }
    assert ("0" + d)[0] == '0';
  }

  /** A leading minus sign is accepted: `-1` parses. */
  lemma NegativeRoundTrip(n: nat)
    requires n <= -Int32Min
    ensures ParseInt32("-" + Decimal(n)) == Some(-(n as int))
  {
    DecimalValue(n);
    assert ("-" + Decimal(n))[1..] == Decimal(n);
  }

  /** A leading plus sign is accepted and changes nothing: `+7` parses to 7. */
  lemma PositiveSignAccepted(n: nat)
    requires n <= Int32Max
    ensures ParseInt32("+" + Decimal(n)) == Some(n)
  {
    DecimalValue(n);
    assert ("+" + Decimal(n))[1..] == Decimal(n);
  }

  /** `Int32.CompareTo`: the sign of `x - y`. */
  function IntCompare(x: int, y: int): (r: int)
    ensures r == 0 <==> x == y
    ensures r < 0 <==> x < y
    ensures -1 <= r <= 1
  {
    if x < y then -1 else if x == y then 0 else 1
  }

  /** `String.CompareTo`, taken as the ordinal lexicographic order. */
  function OrdinalCompare(a: string, b: string): (r: int)
    ensures -1 <= r <= 1
    ensures a == b ==> r == 0
    ensures a == [] && b != [] ==> r == -1
    decreases |a|
  {
    if a == [] && b == [] then 0
    else if a == [] then -1
    else if b == [] then 1
    else if a[0] < b[0] then -1
    else if a[0] > b[0] then 1
    else OrdinalCompare(a[1..], b[1..])
  }

  lemma {:induction false} OrdinalCompareZero(a: string, b: string)
    ensures OrdinalCompare(a, b) == 0 <==> a == b
    decreases |a|
  {
    if a != [] && b != [] && a[0] == b[0] {
      OrdinalCompareZero(a[1..], b[1..]);
      assert a == [a[0]] + a[1..] && b == [b[0]] + b[1..];
    }
  }

  lemma {:induction false} OrdinalCompareAntisymmetric(a: string, b: string)
    ensures OrdinalCompare(a, b) == -OrdinalCompare(b, a)
    decreases |a|
  {
    if a != [] && b != [] && a[0] == b[0] {
      OrdinalCompareAntisymmetric(a[1..], b[1..]);
    }
  }
}

=== FILE: version_folder_name_sorter.dfy ===
/**
 * The comparer for version folder names: two names that both parse as 32-bit
 * integers compare as numbers, any other pair compares as strings. Only the
 * last path component is looked at. The folder discovery does not call it: it
 * keeps the order of the directory listing it is given, and that listing may
 * or may not have been sorted with this comparer.
 */
module VersionFolderNameSorter {
  import opened Text

  /** `VersionFolderNameSorter.Compare`. */
  function Compare(folderName1: string, folderName2: string): (r: int)
    ensures -1 <= r <= 1
  {
    var name1 := GetFileName(folderName1);
    var name2 := GetFileName(folderName2);
    var version1 := ParseInt32(name1);
    var version2 := ParseInt32(name2);
    if version1.Some? && version2.Some? then IntCompare(version1.value, version2.value)
    else OrdinalCompare(name1, name2)
  }

  predicate IsNumeric(path: string) {
    ParseInt32(GetFileName(path)).Some?
  }

  /** Folders named by numbers compare by those numbers: `2` comes before `10`. */
  lemma NumericOrder(x: nat, y: nat)
    requires x <= Int32Max && y <= Int32Max
    ensures Compare(Decimal(x), Decimal(y)) == IntCompare(x, y)
  {
    DecimalRoundTrip(x);
    DecimalRoundTrip(y);
    DigitsHaveNoSeparator(Decimal(x));
    DigitsHaveNoSeparator(Decimal(y));
    FileNameOfName(Decimal(x));
    FileNameOfName(Decimal(y));
  }

  lemma DigitsHaveNoSeparator(d: string)
    requires AllDigits(d)
    ensures HasNoSeparator(d)
  {
    assert forall i :: 0 <= i < |d| ==> IsDigit(d[i]);
  }

  /** A leading zero makes no difference: `01` and `1` compare as 0. */
  lemma LeadingZeroTie(x: nat)
    requires x <= Int32Max
    ensures Compare("0" + Decimal(x), Decimal(x)) == 0
  {
    var padded := "0" + Decimal(x);
    DecimalRoundTrip(x);
    LeadingZeroDigits(Decimal(x));
    DigitsHaveNoSeparator(padded);
    DigitsHaveNoSeparator(Decimal(x));
    FileNameOfName(padded);
    FileNameOfName(Decimal(x));
  }

  /** A name that does not parse as an integer sends the comparer to the string order. */
  lemma NonNumericFallsBack(folderName1: string, folderName2: string)
    requires !IsNumeric(folderName1) || !IsNumeric(folderName2)
    ensures Compare(folderName1, folderName2) == OrdinalCompare(GetFileName(folderName1), GetFileName(folderName2))
  {
  }

  /** Only the last path component is compared. */
  lemma DirectoriesStripped(dir1: string, sep1: char, name1: string, dir2: string, sep2: char, name2: string)
    requires IsSeparator(sep1) && IsSeparator(sep2) && HasNoSeparator(name1) && HasNoSeparator(name2)
    ensures Compare(dir1 + [sep1] + name1, dir2 + [sep2] + name2) == Compare(name1, name2)
  {
    FileNameOfJoin(dir1, sep1, name1);
    FileNameOfJoin(dir2, sep2, name2);
    FileNameOfName(name1);
    FileNameOfName(name2);
  }

  lemma Reflexive(a: string)
    ensures Compare(a, a) == 0
  {
    OrdinalCompareZero(GetFileName(a), GetFileName(a));
  }

  /**
   * Swapping the arguments negates the result. Two numeric names are covered by
   * `IntCompare`; only the string fallback needs the ordinal order's symmetry.
   */
  lemma Antisymmetric(a: string, b: string)
    ensures Compare(a, b) == -Compare(b, a)
  {
    if !IsNumeric(a) || !IsNumeric(b) {
      OrdinalCompareAntisymmetric(GetFileName(a), GetFileName(b));
    }
  }

  /** Among numeric names the comparer is a total preorder. */
  lemma TransitiveAmongNumeric(a: string, b: string, c: string)
    requires IsNumeric(a) && IsNumeric(b) && IsNumeric(c)
    requires Compare(a, b) <= 0 && Compare(b, c) <= 0
    ensures Compare(a, c) <= 0
  {
  }
}

=== FILE: version_store.dfy ===
/**
 * The database as the migration runner sees it through `IDB`: a version table
 * holding one row per installed version of the project, with an `updating`
 * flag, plus a trace of every call the runner makes. Existence probes and
 * script executions are oracles fixed when the database is created.
 *
 * The data-access layer behind `IDB` is not part of this model, so the row
 * semantics below are assumed: `StartUpdating(v)` inserts the row `v` marked
 * as updating, `FinishUpdating(v)` clears the flag of row `v`,
 * `RemoveVersion(v)` deletes row `v`, and `GetCurrentVersion` reports the row
 * with the highest version, or `(-1, false)` for an empty table, creating the
 * table first when it is missing.
 */
module VersionStore {

  /** The three connection strings, by the rights they carry. */
  datatype Tier = DDL | Master | System

  /** The outcome of `IDB.DatabaseExists`: an answer, or an exception. */
  datatype Probe = Answer(found: bool) | Fault

  /** `(currentVersion, updating)` as `GetCurrentVersion` reports it. */
  datatype Row = Row(version: int, updating: bool)

  /** One call of the runner into `IDB`. */
  datatype Event =
    | ProbeDatabase(tier: Tier)
    | ReadVersion
    | CreateTable
    | StartUpdating(version: int)
    | FinishUpdating(version: int)
    | RemoveVersion(version: int)
    | ExecuteFileScript(path: string, tier: Tier, inTransaction: bool)

  /** The version table (version -> updating) and the calls made so far. */
  datatype Store = Store(tableExists: bool, rows: map<int, bool>, calls: seq<Event>)

  lemma {:induction false} MaxExists(keys: set<int>)
    requires keys != {}
    ensures exists v :: v in keys && forall w :: w in keys ==> w <= v
    decreases |keys|
  {
    assert (forall w :: w !in keys) ==> keys == {};
    var x :| x in keys;
    var rest := keys - {x};
    if rest != {} {
      MaxExists(rest);
      var m :| m in rest && forall w :: w in rest ==> w <= m;
      var top := if x <= m then m else x;
      forall w | w in keys ensures w <= top {
        if w != x {
          assert w in rest;
        }
      }
      assert top in keys;
    } else {
      forall w | w in keys ensures w <= x {
        assert w !in rest;
      }
    }
  }

  /** What `GetCurrentVersion` reports for a table with these rows. */
  ghost function Current(rows: map<int, bool>): (r: Row)
    ensures rows == map[] ==> r == Row(-1, false)
    ensures rows != map[] ==>
      r.version in rows && rows[r.version] == r.updating && forall w :: w in rows ==> w <= r.version
  {
    if rows == map[] then Row(-1, false)
    else
      MaxExists(rows.Keys);
      var v :| v in rows && forall w :: w in rows ==> w <= v;
      Row(v, rows[v])
  }

  function Call(s: Store, e: Event): Store {
    s.(calls := s.calls + [e])
  }

  function Probed(s: Store, tier: Tier): Store {
    Call(s, ProbeDatabase(tier))
  }

  function VersionRead(s: Store): Store {
    Call(s.(tableExists := true), ReadVersion)
  }

  function TableCreated(s: Store): Store {
    Call(s.(tableExists := true), CreateTable)
  }

  function Started(s: Store, v: int): Store {
    Call(s.(rows := s.rows[v := true]), StartUpdating(v))
  }

  function Finished(s: Store, v: int): Store {
    Call(s.(rows := if v in s.rows then s.rows[v := false] else s.rows), FinishUpdating(v))
  }

  function Removed(s: Store, v: int): Store {
    Call(s.(rows := s.rows - {v}), RemoveVersion(v))
  }

  function ScriptRun(s: Store, path: string, tier: Tier, inTransaction: bool): Store {
    Call(s, ExecuteFileScript(path, tier, inTransaction))
  }

  /** Installing a version above every installed one makes it current and idle. */
  lemma StartThenFinish(s: Store, v: int)
    requires forall w :: w in s.rows ==> w < v
    ensures Current(Finished(Started(s, v), v).rows) == Row(v, false)
    ensures Finished(Started(s, v), v).rows == s.rows[v := false]
  {
    var rows := Finished(Started(s, v), v).rows;
    assert rows == s.rows[v := false];
    var c := Current(rows);
    assert v in rows;
    assert c.version == v;
  }

  /** Removing a version that was just started restores the table exactly. */
  lemma RemoveUndoesStart(s: Store, v: int)
    requires v !in s.rows
    ensures Removed(Started(s, v), v).rows == s.rows
  {
  }

  /** The rows of a store whose calls are not version writes stay put. */
  lemma CurrentOfSameRows(s: Store, t: Store)
    requires s.rows == t.rows
    ensures Current(s.rows) == Current(t.rows)
  {
  }

  /**
   * The database behind `IDB`. Probing and script execution consult the
   * oracles; every call is appended to `calls`.
   */
  class Database {
    const probe: Tier -> Probe
    const scriptSucceeds: (string, Tier) -> bool
    var tableExists: bool
    var rows: map<int, bool>
    var calls: seq<Event>

    function State(): Store
      reads this
    {
      Store(tableExists, rows, calls)
    }

    constructor(probe: Tier -> Probe, scriptSucceeds: (string, Tier) -> bool, initial: Store)
      ensures this.probe == probe && this.scriptSucceeds == scriptSucceeds
      ensures State() == initial
    {
      this.probe := probe;
      this.scriptSucceeds := scriptSucceeds;
      tableExists := initial.tableExists;
      rows := initial.rows;
      calls := initial.calls;
    }

    /** `IDB.DatabaseExists` with the connection string of `tier`. */
    method DatabaseExists(tier: Tier) returns (r: Probe)
      modifies this
      ensures r == probe(tier)
      ensures State() == Probed(old(State()), tier)
    {
      calls := calls + [ProbeDatabase(tier)];
      r := probe(tier);
    }

    /** `IDB.GetCurrentVersion`: creates the table when missing, then reads the top row. */
    method GetCurrentVersion() returns (currentVersion: int, updating: bool)
      modifies this
      ensures Row(currentVersion, updating) == Current(old(rows))
      ensures State() == VersionRead(old(State()))
    {
      tableExists := true;
      calls := calls + [ReadVersion];
      if rows == map[] {
        currentVersion, updating := -1, false;
      } else {
        MaxExists(rows.Keys);
        currentVersion :| currentVersion in rows && forall w :: w in rows ==> w <= currentVersion;
        updating := rows[currentVersion];
        var c := Current(rows);
        assert c.version <= currentVersion && currentVersion <= c.version;
      }
    }

    /** `IDB.CreateVersionTable`: creates the table unless it exists. */
    method CreateVersionTable()
      modifies this
      ensures State() == TableCreated(old(State()))
    {
      tableExists := true;
      calls := calls + [CreateTable];
    }

    method StartUpdating(newVersion: int)
      modifies this
      ensures State() == Started(old(State()), newVersion)
    {
      rows := rows[newVersion := true];
      calls := calls + [Event.StartUpdating(newVersion)];
    }

    method FinishUpdating(version: int)
      modifies this
      ensures State() == Finished(old(State()), version)
    {
      if version in rows {
        rows := rows[version := false];
      }
      calls := calls + [Event.FinishUpdating(version)];
    }

    method RemoveVersion(version: int)
      modifies this
      ensures State() == Removed(old(State()), version)
    {
      rows := rows - {version};
      calls := calls + [Event.RemoveVersion(version)];
    }

    /** `IDB.ExecuteFileScript`: the oracle decides whether the script throws. */
    method ExecuteFileScript(filePath: string, tier: Tier, inTransaction: bool) returns (ok: bool)
      modifies this
      ensures ok == scriptSucceeds(filePath, tier)
      ensures State() == ScriptRun(old(State()), filePath, tier, inTransaction)
    {
      calls := calls + [Event.ExecuteFileScript(filePath, tier, inTransaction)];
      ok := scriptSucceeds(filePath, tier);
    }
  }
}
